=== FILE: README.md ===
# Multi-layer atmosphere of hcipy, in Dafny

This project models the composition engine of hcipy's atmosphere package: the
`MultiLayerAtmosphere`, which stacks infinitely-thin turbulent layers into a
chain of optical elements, caches that chain behind a dirty flag, and passes
wavefronts through it; the accessors of a single `AtmosphericLayer` that the
composite relies on; and the conversions between seeing and Fried parameter.

## How the system is represented

- **Layers** (`Layers.Layer`) are records of height, Cn², outer scale
  (`Finite(length)` or `Infinite`), velocity and phase screen. The screen is the
  layer's phase in radians at the wavelength in use, one sample per grid
  point. How a concrete layer produces or evolves it is subclass behaviour and
  enters the model as a parameter.
- **Layer identity.** The cached chain holds the layer objects themselves. A
  stale chain therefore keeps applying layers that are no longer in the list.
  A list may also name one object twice, and re-assigning objects already in
  use keeps them the same objects.
  - `MultiLayer.Atmosphere` keeps every layer object created so far in `pool`.
    `AddLayers` creates objects by appending them to `pool`.
  - `layers` lists the current objects by position in `pool`, in any order
    and with repeats. `SetLayers` assigns such a list, and `CreateFrom`
    constructs an atmosphere over one. `Create` is the common case of a
    list of distinct new objects.
  - Every `LayerEl(idx)` entry of `elements` is a position in `pool` too.
- **The chain** (`Chain.Element = LayerEl(idx) | Prop(dist)`) is a pure
  function of the layer heights and the scintillation flag.
  - `BuildChainFrom` builds it for any descending order of the layers.
  - `BuildChain` uses a concrete sort (`SortDescending`).
  - The program uses an unstable argsort. The lemmas of the `Chain` module
    are therefore proved for every order that lists each layer once with
    non-increasing heights, whatever it does with equal heights.
- **Wavefronts** are their unwrapped phase samples (`seq<real>`). A layer's
  forward multiplies the field by exp(+iφ), which here adds its screen. Its
  backward multiplies by exp(−iφ), which subtracts the screen. Fresnel
  propagation over a distance is a caller-supplied operator `(real, Wave) ->
  Wave`. It is assumed to keep the grid (`KeepsGrid`). For round trips, its
  backward form is assumed to undo its forward form (`Undoes`).
- **Fitting the wavefront.** Only the layers a chain applies must have the
  wavefront's number of samples (`Propagation.ChainFits`). For the
  atmosphere (`MultiLayer.WaveFits`) these are the current layers when a
  rebuild is pending, and the cached chain's layers otherwise. Objects no
  longer in use may have any grid.
- **Errors** are values of `Outcome.Result`:
  - `NoLayers`: rebuilding the chain, reading the outer scale or summing
    phases over an empty list, where the program indexes the first or last
    layer.
  - `ScintillationOn`: `phase_for` with scintillation enabled.
  - `ZeroTotalCnSquared`: setting the total Cn² of layers whose total is
    zero. The program divides by zero here.
- All scalars are Dafny `real`s (exact arithmetic).

The model follows the code:
- The misspelt legacy constructor argument overrides `scintillation` whenever
  it is not `None`, including `False`
  (hcipy/atmosphere/atmospheric_model.py:172-176).
- `np.argsort` (line 192) fixes no order among equal heights. The `Chain`
  lemmas hold for any such order. The atmosphere itself
  (`MultiLayer.FreshChain`) needs one concrete order, and uses
  `Chain.SortDescending`, a stable insertion sort that keeps equal heights
  in list order.
- Setting the total Cn² of an empty atmosphere changes nothing (lines
  278-280): the old total is 0, and the loop has no layer to divide.

## Model

| member | source | states |
|---|---|---|
| Chain.SortDescendingCorrect | hcipy/atmosphere/atmospheric_model.py:191-194 | the sort used for the chain lists every layer index exactly once, with heights never increasing |
| Chain.CalculateElements | hcipy/atmosphere/atmospheric_model.py:191-210 | the loop that appends each sorted layer, the propagation to the next layer while there is one, and the trailing propagation builds exactly the chain `BuildChainFrom` describes |
| Chain.ChainLayerOrder | hcipy/atmosphere/atmospheric_model.py:201-203 | reading only the layer entries of the chain, in order, gives back the sorted order itself |
| Chain.BuildChainOrdering | hcipy/atmosphere/atmospheric_model.py:191-203 | the layer entries of the built chain are a permutation of 0..N−1 with non-increasing heights |
| Chain.ChainStartsWithHighest | hcipy/atmosphere/atmospheric_model.py:201-203 | the chain starts with the first layer of the order, the highest one |
| Chain.ChainWithoutScintillation | hcipy/atmosphere/atmospheric_model.py:198-205 | without scintillation the chain is exactly the N sorted layers, with no propagation and zero total distance |
| Chain.ChainWithScintillation | hcipy/atmosphere/atmospheric_model.py:195-205 | with scintillation, layer i sits at position 2i and exactly one propagation sits between consecutive layers, over the upper height minus the lower one, which is non-negative and may be zero |
| Chain.ChainTrailingPropagator | hcipy/atmosphere/atmospheric_model.py:207-208 | the chain has 2N entries iff scintillation is on and the lowest layer is above ground, and the last entry is then a propagation over the lowest height; the distances telescope to the highest height, or to highest − lowest when the lowest layer is not above ground, and to zero without scintillation |
| Chain.GroundLayerChain | hcipy/atmosphere/atmospheric_model.py:191-208 | layers at 0, 5000 and 10000 m with scintillation give layer 2, 5000 m, layer 1, 5000 m, layer 0, with no trailing propagation |
| Chain.RaisedLayerChain | hcipy/atmosphere/atmospheric_model.py:191-208 | raising the lowest layer to 100 m turns the second gap into 4900 m and appends a 100 m propagation to the ground |
| MultiLayer.CreateFromBuildsChain | hcipy/atmosphere/atmospheric_model.py:170-183 | construction over existing layer objects succeeds iff the list is non-empty; the atmosphere then holds exactly those objects and lists them as given, repeats included, its chain is clean and current, its flag is the legacy value when one is given, and its time is 0 |
| MultiLayer.CreateBuildsChain | hcipy/atmosphere/atmospheric_model.py:170-183 | construction succeeds iff there is a layer; the atmosphere is then clean, its chain is current, its layers are exactly the given ones, its flag is the legacy value when one is given, and its time is 0 |
| MultiLayer.CalculatePropagatorsCleans | hcipy/atmosphere/atmospheric_model.py:185-210 | a rebuild fails iff there are no layers; otherwise it leaves a clean, current chain and changes nothing else |
| MultiLayer.AddLayersKeepsState | hcipy/atmosphere/atmospheric_model.py:222-225 | in any state, stale ones included, creating layer objects before assigning them changes nothing the atmosphere holds: the new objects take the next positions, the current layers and the chain are kept, and the chain is current and the cache invariant holds after exactly when they did before |
| MultiLayer.SetLayersMarksDirty | hcipy/atmosphere/atmospheric_model.py:222-225 | assigning a list of layer objects, new or already in use, in any order and with repeats, sets the dirty flag; the list becomes exactly the given one, position i reads the i-th listed object, the old chain and every object stay, and the cache invariant holds |
| MultiLayer.SetScintillationFromClean | hcipy/atmosphere/atmospheric_model.py:253-256 | from a clean state the setter marks the chain dirty exactly when the value changes, and the cache invariant is kept |
| MultiLayer.SameScintillationDropsRebuild | hcipy/atmosphere/atmospheric_model.py:253-256 | after any list is assigned, re-assigning the same scintillation value clears the dirty flag and keeps the old chain; the cache invariant then holds iff the list is non-empty and the old chain is the one it calls for |
| MultiLayer.EmptyListKeepsOldChain | hcipy/atmosphere/atmospheric_model.py:253-256 | after an empty list and the same scintillation value, the cache invariant is broken, the skipped rebuild would fail for want of a layer, and forward succeeds by applying the old chain |
| MultiLayer.NewLayersDropRebuild | hcipy/atmosphere/atmospheric_model.py:253-256 | when the assigned list is made only of newly created objects, the old chain is never the one it calls for: the atmosphere is clean with a chain that is not current, and the cache invariant is broken |
| MultiLayer.ReusedLayersKeepChain | hcipy/atmosphere/atmospheric_model.py:253-256 | from a clean atmosphere where the cache invariant holds, re-assigning the very list in use and then the same scintillation value leaves the atmosphere exactly as it was, its chain current |
| MultiLayer.ReusedLayerEvolvesInChain | hcipy/atmosphere/atmospheric_model.py:258-268 | building over one layer, re-assigning that same layer object, assigning scintillation False and evolving the layer to a screen of 5 rad: forward then applies the evolved layer, adding 5 rad |
| MultiLayer.StaleChainWitness | hcipy/atmosphere/atmospheric_model.py:253-256 | on a concrete atmosphere, layers := [high layer] then scintillation := False makes forward apply the replaced low layer (+1 rad), whereas the corrected setter makes it apply the new one (+2 rad) |
| MultiLayer.KeepingDirtyPreservesCoherence | hcipy/atmosphere/atmospheric_model.py:253-256 | the corrected setter (dirty := dirty or changed) preserves the cache invariant from every state where it held |
| MultiLayer.ForwardUsesCurrentChain | hcipy/atmosphere/atmospheric_model.py:303-310 | from a state where the cache invariant holds and the layers forward will apply fit the wavefront, forward rebuilds exactly when dirty, fails only for a dirty atmosphere without layers, leaves a clean current chain, and applies the chain built from the current layers, whose layers all fit |
| MultiLayer.RetiredLayerIgnored | hcipy/atmosphere/atmospheric_model.py:303-310 | after a layer of a two-sample grid is replaced by one of a one-sample grid, forward of a one-sample wavefront succeeds and applies only the new layer, although the retired object does not fit |
| MultiLayer.BackwardUsesCurrentChain | hcipy/atmosphere/atmospheric_model.py:312-319 | from a state where the cache invariant holds and the layers backward will apply fit the wavefront, backward rebuilds exactly when dirty, fails only for a dirty atmosphere without layers, leaves a clean current chain, and applies the current chain, last element first, each element backwards |
| MultiLayer.AtmosphereRoundTrip | hcipy/atmosphere/atmospheric_model.py:303-319 | from any state whose layers to be applied fit the wavefront, stale chains included, backward on the atmosphere forward leaves behind returns the original wavefront and leaves the atmosphere unchanged, given that backward propagation undoes forward propagation |
| Propagation.TraverseForward | hcipy/atmosphere/atmospheric_model.py:307-310 | for any chain whose layers fit the wavefront, the forward loop over the elements computes the in-order composition of the elements' forward operations |
| Propagation.TraverseBackward | hcipy/atmosphere/atmospheric_model.py:316-319 | for any chain whose layers fit the wavefront, the loop over the reversed elements computes the composition of their backward operations, last element first |
| Propagation.ChainRoundTrip | hcipy/atmosphere/atmospheric_model.py:308-318 | for any chain whose layers fit the wavefront, applying the elements backwards in reverse order undoes applying them forwards |
| Layers.LayerRoundTrip | hcipy/atmosphere/atmospheric_model.py:143-151 | a layer's backward (−φ) undoes its forward (+φ), and the other way round |
| MultiLayer.ForwardAddsUnwrappedPhase | hcipy/atmosphere/atmospheric_model.py:227-245 | without scintillation, from a state where the cache invariant holds and the current layers fit the wavefront, forward adds to the wavefront exactly the unwrapped phase reported by phase_for, although the chain visits the layers by height and the sum visits them in list order |
| MultiLayer.PhaseForCases | hcipy/atmosphere/atmospheric_model.py:240-245 | phase_for fails iff scintillation is on (with that error) or there are no layers; otherwise each sample is the sum of that sample over all layers |
| Propagation.PhaseSumSamples | hcipy/atmosphere/atmospheric_model.py:243-245 | each sample of the elementwise phase sum is the sum, over every layer, of that layer's sample |
| MultiLayer.UpdateEachEffect | hcipy/atmosphere/atmospheric_model.py:279-280 | a loop that updates each listed object in turn updates every object of the pool once per occurrence of it in the list, and leaves objects not listed alone |
| MultiLayer.EvolveUntilEffect | hcipy/atmosphere/atmospheric_model.py:258-268 | every object of the pool is advanced to t once per occurrence in the list (twice when listed twice, not at all when not listed), no object is added, t is recorded, and the list, the dirty flag and the chain are untouched; without repeats, current layer i becomes layer i evolved to t |
| MultiLayer.EvolveUntilKeepsCoherence | hcipy/atmosphere/atmospheric_model.py:299-301 | in any state, stale ones included, when evolving a layer keeps its height, the cache invariant holds after setting the time exactly when it held before |
| Strength.RescaleTotal | hcipy/atmosphere/atmospheric_model.py:278-280 | rescaling every layer by x over the old total T scales the total Cn² to (old sum)/T·x |
| Strength.RedistributeCorrect | hcipy/atmosphere/atmospheric_model.py:270-280 | setting the total fails iff the list is non-empty with zero total; otherwise the new total is the requested value (zero for no layers), each layer keeps its share, pairwise ratios are kept, zero layers stay zero, and nothing but Cn² changes |
| MultiLayer.SetCnSquaredEffect | hcipy/atmosphere/atmospheric_model.py:276-280 | in any state, stale ones included, the atmosphere's total Cn² setter fails exactly as the redistribution does; otherwise each object of the pool has its Cn² multiplied by x over the old total once per occurrence in the list, nothing but the pool changes (the list, chain, flags and time are kept, and no object is added), an empty list changes nothing, and the cache invariant holds after exactly when it held before; when no object is listed twice, the current layers are exactly the redistribution and the getter reads x |
| MultiLayer.RepeatedLayerRescaledTwice | hcipy/atmosphere/atmospheric_model.py:276-280 | a list naming one layer of Cn² 1 twice, whether assigned through the setter or passed to the constructor, has total 2; setting the total to 4 rescales that object twice, to 4, so the getter then reads 8 rather than 4 |
| Strength.BroadcastThenRead | hcipy/atmosphere/atmospheric_model.py:282-291 | after the outer scale is set, the getter reads it back (failing without layers), every layer holds it, and nothing else of any layer changes |
| MultiLayer.SetOuterScaleAllEffect | hcipy/atmosphere/atmospheric_model.py:288-291 | in any state, stale ones included, the atmosphere's outer scale setter writes the value into every listed object, once however often it is listed, leaves every other object (such as one a stale chain still applies) alone, and changes nothing but the pool; the getter reads the value back, and the cache invariant holds after exactly when it held before |
| Layers.L0IsOuterScale | hcipy/atmosphere/atmospheric_model.py:104-112 | reading or writing `L0` is reading or writing the outer scale, and writing changes nothing else |
| Layers.ScalarVelocityIsVector | hcipy/atmosphere/atmospheric_model.py:120-125 | assigning a scalar speed sets the same velocity as the vector [speed, 0] |
| Seeing.SeeingToFriedParameter | hcipy/atmosphere/atmospheric_model.py:437-456 | the returned r0 satisfies radians(seeing/3600)·r0 = 0.98·wavelength, and is positive for positive seeing and wavelength |
| Seeing.FriedParameterToSeeing | hcipy/atmosphere/atmospheric_model.py:458-477 | the returned seeing satisfies the same relation, and is positive for positive r0 and wavelength |
| Seeing.SeeingRoundTrip | hcipy/atmosphere/atmospheric_model.py:456-477 | converting a non-zero seeing to r0 and back gives the seeing again |
| Seeing.FriedRoundTrip | hcipy/atmosphere/atmospheric_model.py:456-477 | converting a non-zero r0 to seeing and back gives r0 again |

## Left out

- The von Kármán covariance, structure function and power spectrum (lines 321-399) are left out. They are floating-point formulas over grids with gamma and Bessel functions and fractional powers.
- `Cn_squared_from_fried_parameter` and `fried_parameter_from_Cn_squared` (lines 401-435) are left out. They need real powers −5/3 and −3/5, which Dafny's reals lack.
- `reset` (lines 212-214) is left out. It only delegates to the layers' screen generation, which belongs to concrete subclasses.
- The layer base class's abstract members are left out. This covers `evolve_until`, `reset`, `phase_for` and the `Cn_squared` and `outer_scale` setters, which raise `NotImplementedError`.
  - A layer's phase at the wavelength in use is its `screen`.
  - Evolving a layer is a function parameter.
  - Setting a layer's Cn² or outer scale writes the field, as concrete layers do.
- Grids, `Field` and complex electric fields are not modelled. The wavefront is its unwrapped phase, so exp(±iφ) becomes ±φ and the phase is never wrapped. The grid passed to the propagators is not modelled either.
- `FresnelPropagator` is kept only as its distance and a caller-supplied operator. Its physics is not part of this model.
- The deprecation warning for the misspelt constructor argument (line 174) is not modelled.
- In-place edits are not modelled, because the dirty flag does not see them:
  - edits to a layer's `height`, which is a plain attribute (line 54);
  - edits to the list itself, such as `atm.layers.append(L)`, or mutating the list after passing it to the constructor or the setter. The setter at line 224 stores the caller's list object itself.
  - Only assigning a list through the setter is modelled.
- The `scintillation`, `layers` and `t` getters are field reads and have no members of their own.
- hcipy/plotting/animation.py is not part of this model. It is file, subprocess and plotting I/O.
- Seeing.SeeingToFriedParameter: a zero seeing is excluded by the precondition. The program divides by zero there, which numpy turns into an infinity, and Dafny reals have no infinity.
- Seeing.FriedParameterToSeeing: a zero r0 is excluded by the precondition. At line 477 a plain Python number r0 = 0 raises `ZeroDivisionError`, and a numpy value gives an infinity. Dafny reals have neither an exception there nor an infinity.
- The 500 nm default wavelength of both conversions (lines 437 and 458) is not modelled. Callers of the model always pass the wavelength.
- MultiLayer.SetCnSquaredEffect: the getter reads the requested total only when no object is listed twice. With repeats a listed object is rescaled once per listing, as the loop at lines 279-280 does, and `MultiLayer.RepeatedLayerRescaledTwice` shows that the total then differs from the request.
- MultiLayer.SetCnSquaredEffect: a zero total over a non-empty list is an error value. The program would divide by zero and store infinities or NaN in the layers.
- MultiLayer.EvolveUntilKeepsCoherence: requires that evolving a layer keeps its height. A concrete layer may change its own height in `evolve_until`, which the dirty flag would not see.
- MultiLayer.ForwardUsesCurrentChain and the other wavefront lemmas require the layers that will be applied to have the wavefront's number of samples. When one of them does not, numpy raises a broadcasting error, and that error is not modelled. Objects that are not applied are not constrained.

## Findings

| source | as written | input that shows it | evidently intended | confidence | as-written member | corrected member |
|---|---|---|---|---|---|---|
| hcipy/atmosphere/atmospheric_model.py:255 | the scintillation setter assigns `dirty := (new != old)`, discarding a pending rebuild | build an atmosphere over one layer at 1 m without scintillation, assign `layers = [layer at 2 m]`, assign `scintillation = False`, call `forward`: the chain still holds the 1 m layer and applies it | `dirty := dirty or (new != old)`, so a pending rebuild survives | high, not executed | MultiLayer.SetScintillation | MultiLayer.SetScintillationKeepingDirty |

The as-written setter is `MultiLayer.SetScintillation`. `MultiLayer.SameScintillationDropsRebuild` proves that it drops the rebuild for every assigned list. `MultiLayer.EmptyListKeepsOldChain` proves that after an empty list `forward` applies the old chain instead of failing. `MultiLayer.NewLayersDropRebuild` proves that the cache invariant is then broken whenever the list holds newly created objects. `MultiLayer.StaleChainWitness` proves, for the input above, that `forward` applies the replaced 1 m layer.

The corrected setter is `MultiLayer.SetScintillationKeepingDirty`. `MultiLayer.KeepingDirtyPreservesCoherence` proves that it keeps the cache invariant "not dirty implies the chain is current". For the same input, `StaleChainWitness` proves that with the corrected setter `forward` applies the new layer.

=== FILE: atmosphere.dfy ===
/** The multi-layer atmosphere: a list of layers, a scintillation flag, and a
    cached propagation chain that is rebuilt lazily when marked dirty.

    Layers are objects: the cached chain holds the layer objects themselves,
    and a stale chain keeps pointing at layers that are no longer in the
    list, and a list may name the same object twice. The model keeps every
    layer object in `pool`; `layers` lists the current ones by their position
    there (repeats allowed), and the layer entries of `elements` are positions
    in `pool` too. */
module MultiLayer {
  import opened Outcome
  import opened Layers
  import opened Chain
  import opened Sums
  import opened Strength
  import opened Propagation

  datatype Atmosphere = Atmosphere(
    pool: seq<Layer>,
    layers: seq<nat>,
    scintillation: bool,
    dirty: bool,
    elements: seq<Element>,
    t: real)

  /** The result of passing a wavefront through the atmosphere: the
      atmosphere (its chain possibly rebuilt) and the outgoing wavefront. */
  datatype Traversal = Traversal(atmosphere: Atmosphere, wave: Wave)

  /** No layer object is listed twice. */
  predicate Distinct(ids: seq<nat>)
  {
    forall i, j :: 0 <= i < j < |ids| ==> ids[i] != ids[j]
  }

  /** The current layers and the chain name objects of the pool. */
  predicate WellFormed(a: Atmosphere)
  {
    && InRange(a.pool, a.layers)
    && LayersIn(a.elements, |a.pool|)
  }

  /** The current layer list. */
  function Current(a: Atmosphere): (r: seq<Layer>)
    requires InRange(a.pool, a.layers)
    ensures |r| == |a.layers|
    ensures forall i :: 0 <= i < |r| ==> r[i] == a.pool[a.layers[i]]
  {
    seq(|a.layers|, i requires 0 <= i < |a.layers| => a.pool[a.layers[i]])
  }

  function Heights(ls: seq<Layer>): (r: seq<real>)
    ensures |r| == |ls|
    ensures forall i :: 0 <= i < |ls| ==> r[i] == ls[i].height
  {
    seq(|ls|, i requires 0 <= i < |ls| => ls[i].height)
  }

  /** A chain over list positions turned into a chain over the objects found
      at those positions. */
  function Resolve(es: seq<Element>, ids: seq<nat>): (r: seq<Element>)
    requires LayersIn(es, |ids|)
    ensures |r| == |es|
    ensures forall i :: 0 <= i < |es| ==>
      r[i] == (match es[i] case LayerEl(j) => LayerEl(ids[j]) case Prop(d) => Prop(d))
  {
    seq(|es|, i requires 0 <= i < |es| =>
      match es[i] case LayerEl(j) => LayerEl(ids[j]) case Prop(d) => Prop(d))
  }

  /** The chain `calculate_propagators` would build from the current layers. */
  function FreshChain(a: Atmosphere): (r: seq<Element>)
    requires InRange(a.pool, a.layers) && |a.layers| >= 1
    ensures LayersIn(r, |a.pool|)
  {
    var es := BuildChain(Heights(Current(a)), a.scintillation);
    Resolve(es, a.layers)
  }

  /** The cached chain is the one the current layers and flag call for. */
  predicate ChainCurrent(a: Atmosphere)
    requires InRange(a.pool, a.layers)
  {
    |a.layers| >= 1 && a.elements == FreshChain(a)
  }

  /** The cache invariant: a chain not marked dirty is current. */
  predicate Coherent(a: Atmosphere)
  {
    WellFormed(a) && (!a.dirty ==> ChainCurrent(a))
  }

  /** Positions `from`, ..., `from + n - 1`. */
  function FreshIds(from: nat, n: nat): (r: seq<nat>)
    ensures |r| == n
    ensures forall i :: 0 <= i < n ==> r[i] == from + i
  {
    seq(n, i requires 0 <= i < n => from + i)
  }

  /** Creating layer objects: they join the pool, at positions `|a.pool|`
      onwards, and nothing the atmosphere holds changes. */
  function AddLayers(a: Atmosphere, ls: seq<Layer>): (r: Atmosphere)
  {
    a.(pool := a.pool + ls)
  }

  /** Assigning a list of layer objects, new or already in use, in any order
      and with repeats: the chain is marked dirty. */
  function SetLayers(a: Atmosphere, ids: seq<nat>): (r: Atmosphere)
    requires InRange(a.pool, ids)
  {
    a.(layers := ids, dirty := true)
  }

  /** Rebuilding the chain; it reads the first layer, so an empty list
      fails. */
  function CalculatePropagators(a: Atmosphere): (r: Result<Atmosphere>)
    requires WellFormed(a)
  {
    if |a.layers| == 0 then Failure(NoLayers)
    else Success(a.(elements := FreshChain(a), dirty := false))
  }

  /** Construction: a legacy flag, when given, replaces the scintillation
      flag; then the list is assigned through the layers setter and the
      chain built at once. The list names objects of `pool` by position, so
      it may name one object twice. */
  function CreateFrom(pool: seq<Layer>, ids: seq<nat>, scintillation: bool, legacy: Option<bool>): (r: Result<Atmosphere>)
    requires InRange(pool, ids)
  {
    var s := if legacy.Some? then legacy.value else scintillation;
    var blank := Atmosphere([], [], s, true, [], 0.0);
    CalculatePropagators(SetLayers(AddLayers(blank, pool), ids))
  }

  /** Construction over a list of distinct layer objects, one per entry. */
  function Create(ls: seq<Layer>, scintillation: bool, legacy: Option<bool>): (r: Result<Atmosphere>)
  {
    CreateFrom(ls, FreshIds(0, |ls|), scintillation, legacy)
  }

  /** The scintillation setter as written: the dirty flag is ASSIGNED whether
      the value changes, so a pending rebuild is dropped when it does not. */
  function SetScintillation(a: Atmosphere, s: bool): (r: Atmosphere)
  {
    a.(dirty := s != a.scintillation, scintillation := s)
  }

  /** The scintillation setter with a pending rebuild kept. */
  function SetScintillationKeepingDirty(a: Atmosphere, s: bool): (r: Atmosphere)
  {
    a.(dirty := a.dirty || s != a.scintillation, scintillation := s)
  }

  /** Rebuild first when dirty. */
  function Refresh(a: Atmosphere): (r: Result<Atmosphere>)
    requires WellFormed(a)
    ensures r.Success? ==> WellFormed(r.value) && r.value.pool == a.pool
  {
    if a.dirty then CalculatePropagators(a) else Success(a)
  }

  /** The layers `forward` and `backward` will apply have `n` samples: the
      current layers when a rebuild is pending, the cached chain's layers
      otherwise. Other objects, such as layers no longer in use, may have
      any grid. */
  predicate WaveFits(a: Atmosphere, n: nat)
    requires InRange(a.pool, a.layers)
  {
    if a.dirty then ScreensFit(Current(a), n) else ChainFits(a.elements, a.pool, n)
  }

  /** `forward`: rebuild when dirty, then pass a copy of the wavefront
      through the chain in order. */
  function Forward(a: Atmosphere, fwd: Propagator, w: Wave): (r: Result<Traversal>)
    requires WellFormed(a) && WaveFits(a, |w|) && KeepsGrid(fwd)
  {
    RefreshFits(a, |w|);
    var b :- Refresh(a);
    Success(Traversal(b, ApplyForward(b.elements, b.pool, fwd, w)))
  }

  /** `backward`: rebuild when dirty, then pass a copy of the wavefront
      through the reversed chain, each element backwards. */
  function Backward(a: Atmosphere, back: Propagator, w: Wave): (r: Result<Traversal>)
    requires WellFormed(a) && WaveFits(a, |w|) && KeepsGrid(back)
  {
    RefreshFits(a, |w|);
    var b :- Refresh(a);
    Success(Traversal(b, ApplyBackward(b.elements, b.pool, back, w)))
  }

  /** The chain built from current layers of `n` samples applies only
      layers of `n` samples. */
  lemma FreshChainFits(a: Atmosphere, n: nat)
    requires InRange(a.pool, a.layers) && |a.layers| >= 1 && ScreensFit(Current(a), n)
    ensures ChainFits(FreshChain(a), a.pool, n)
  {
    var es := BuildChain(Heights(Current(a)), a.scintillation);
    forall i | 0 <= i < |es| && es[i].LayerEl?
      ensures |a.pool[a.layers[es[i].idx]].screen| == n
    {
      assert Current(a)[es[i].idx] == a.pool[a.layers[es[i].idx]];
    }
  }

  /** After the refresh `forward` and `backward` start with, the chain
      applies only layers that fit the wavefront. */
  lemma RefreshFits(a: Atmosphere, n: nat)
    requires WellFormed(a) && WaveFits(a, n)
    ensures Refresh(a).Success? ==> ChainFits(Refresh(a).value.elements, a.pool, n)
    ensures Refresh(a).Success? ==> WaveFits(Refresh(a).value, n)
  {
    if a.dirty && |a.layers| >= 1 {
      FreshChainFits(a, n);
    }
  }

  /** From a coherent state, fitting current layers are all a wavefront
      needs. */
  lemma CoherentFits(a: Atmosphere, n: nat)
    requires Coherent(a) && ScreensFit(Current(a), n)
    ensures WaveFits(a, n)
  {
    if !a.dirty {
      FreshChainFits(a, n);
    }
  }

  /** Applies `f` to the layer object at each listed position, in list order. */
  function UpdateEach(pool: seq<Layer>, ids: seq<nat>, f: Layer -> Layer): (r: seq<Layer>)
    requires InRange(pool, ids)
    ensures |r| == |pool|
    decreases |ids|
  {
    if ids == [] then pool
    else UpdateEach(pool[ids[0] := f(pool[ids[0]])], ids[1..], f)
  }

  /** `f` applied `k` times. */
  function Iterate(f: Layer -> Layer, k: nat, l: Layer): Layer
  {
    if k == 0 then l else Iterate(f, k - 1, f(l))
  }

  /** Each object of the pool is updated once per occurrence of its
      position in `ids`: objects not listed are left alone, and an object
      listed twice is updated twice. */
  lemma {:induction false} UpdateEachEffect(pool: seq<Layer>, ids: seq<nat>, f: Layer -> Layer)
    requires InRange(pool, ids)
    decreases |ids|
    ensures forall p :: 0 <= p < |pool| ==>
      UpdateEach(pool, ids, f)[p] == Iterate(f, multiset(ids)[p], pool[p])
  {
    if ids != [] {
      var pool1 := pool[ids[0] := f(pool[ids[0]])];
      UpdateEachEffect(pool1, ids[1..], f);
      assert ids == [ids[0]] + ids[1..];
      assert multiset(ids) == multiset{ids[0]} + multiset(ids[1..]);
    }
  }

  /** In a list without repeats every listed position occurs once. */
  lemma DistinctOnce(ids: seq<nat>, i: nat)
    requires Distinct(ids) && i < |ids|
    ensures multiset(ids)[ids[i]] == 1
  {
    var before, after := ids[..i], ids[i + 1..];
    assert ids == before + [ids[i]] + after;
    assert ids[i] !in before by {
      forall j | 0 <= j < |before| ensures before[j] != ids[i] {
        assert before[j] == ids[j];
      }
    }
    assert ids[i] !in after by {
      forall j | 0 <= j < |after| ensures after[j] != ids[i] {
        assert after[j] == ids[i + 1 + j];
      }
    }
  }

  /** An update that is idempotent has the effect of one update, however
      often it is applied. */
  lemma {:induction false} IterateIdempotent(f: Layer -> Layer, k: nat, l: Layer)
    requires k >= 1
    requires forall m :: f(f(m)) == f(m)
    ensures Iterate(f, k, l) == f(l)
  {
    if k > 1 {
      IterateIdempotent(f, k - 1, f(l));
    }
  }

  /** An update that keeps the height keeps it however often it is applied. */
  lemma {:induction false} IterateKeepsHeight(f: Layer -> Layer, k: nat, l: Layer)
    requires forall m :: f(m).height == m.height
    ensures Iterate(f, k, l).height == l.height
  {
    if k > 0 {
      IterateKeepsHeight(f, k - 1, f(l));
    }
  }

  /** Applies `f` to every current layer. */
  function MapLayers(a: Atmosphere, f: Layer -> Layer): (r: Atmosphere)
    requires InRange(a.pool, a.layers)
  {
    a.(pool := UpdateEach(a.pool, a.layers, f))
  }

  /** Updating the current layers applies `f` to each object once per
      occurrence in the list, leaves every other object (such as those a
      stale chain holds) alone, and changes nothing else; without repeats
      each current layer is updated exactly once. */
  lemma MapLayersEffect(a: Atmosphere, f: Layer -> Layer)
    requires InRange(a.pool, a.layers)
    ensures var b := MapLayers(a, f);
      && |b.pool| == |a.pool|
      && b.(pool := a.pool) == a
      && (forall p :: 0 <= p < |a.pool| ==> b.pool[p] == Iterate(f, multiset(a.layers)[p], a.pool[p]))
      && (Distinct(a.layers) ==> forall i :: 0 <= i < |a.layers| ==> Current(b)[i] == f(Current(a)[i]))
  {
    var b := MapLayers(a, f);
    UpdateEachEffect(a.pool, a.layers, f);
    if Distinct(a.layers) {
      forall i | 0 <= i < |a.layers|
        ensures Current(b)[i] == f(Current(a)[i])
      {
        DistinctOnce(a.layers, i);
        assert Iterate(f, 1, Current(a)[i]) == f(Current(a)[i]);
      }
    }
  }

  /** An update that keeps heights keeps the cache invariant and the chain
      the current layers call for. */
  lemma MapLayersKeepsChain(a: Atmosphere, f: Layer -> Layer)
    requires WellFormed(a)
    requires forall m :: f(m).height == m.height
    ensures WellFormed(MapLayers(a, f))
    ensures Coherent(MapLayers(a, f)) <==> Coherent(a)
    ensures |a.layers| >= 1 ==> FreshChain(MapLayers(a, f)) == FreshChain(a)
  {
    var b := MapLayers(a, f);
    MapLayersEffect(a, f);
    assert b.layers == a.layers && b.elements == a.elements && b.dirty == a.dirty;
    assert WellFormed(b);
    forall i | 0 <= i < |a.layers|
      ensures Current(b)[i].height == Current(a)[i].height
    {
      IterateKeepsHeight(f, multiset(a.layers)[a.layers[i]], Current(a)[i]);
    }
    if |a.layers| >= 1 {
      SameHeightsSameChain(a, b);
      assert ChainCurrent(b) <==> ChainCurrent(a);
    }
  }

  /** `evolve_until` (and the `t` setter): every current layer is advanced
      to `t`, then `t` is recorded. */
  function EvolveUntil(a: Atmosphere, t: real, evolve: (Layer, real) -> Layer): (r: Atmosphere)
    requires InRange(a.pool, a.layers)
  {
    MapLayers(a, Advance(evolve, t)).(t := t)
  }

  /** One layer's `evolve_until(t)`. */
  function Advance(evolve: (Layer, real) -> Layer, t: real): Layer -> Layer
  {
    l => evolve(l, t)
  }

  /** The total Cn^2 getter. */
  function CnSquared(a: Atmosphere): real
    requires InRange(a.pool, a.layers)
  {
    TotalCnSquared(Current(a))
  }

  /** The total Cn^2 setter: the old total is read once, then every layer is
      rescaled by it. */
  function SetCnSquared(a: Atmosphere, x: real): (r: Result<Atmosphere>)
    requires InRange(a.pool, a.layers)
  {
    var total := CnSquared(a);
    if |a.layers| == 0 then Success(a)
    else if total == 0.0 then Failure(ZeroTotalCnSquared)
    else Success(MapLayers(a, Rescaler(total, x)))
  }

  /** One layer's step of the total Cn^2 setter. */
  function Rescaler(total: real, x: real): Layer -> Layer
    requires total != 0.0
  {
    l => ScaleStrength(l, total, x)
  }

  /** The outer scale getter: the first layer's. */
  function CommonOuterScale(a: Atmosphere): Result<OuterScale>
    requires InRange(a.pool, a.layers)
  {
    OuterScaleOf(Current(a))
  }

  /** The outer scale setter: the value goes to every layer. */
  function SetOuterScaleAll(a: Atmosphere, v: OuterScale): (r: Atmosphere)
    requires InRange(a.pool, a.layers)
  {
    MapLayers(a, Writer(v))
  }

  /** One layer's outer scale setter. */
  function Writer(v: OuterScale): Layer -> Layer
  {
    l => SetOuterScale(l, v)
  }

  /** All current layers share one grid: the first layer's. */
  predicate UniformGrid(ls: seq<Layer>)
  {
    |ls| == 0 || ScreensFit(ls, |ls[0].screen|)
  }

  /** `phase_for`: undefined with scintillation; otherwise the sum of the
      layers' phases, which needs at least one layer. */
  function PhaseFor(a: Atmosphere): (r: Result<seq<real>>)
    requires InRange(a.pool, a.layers) && UniformGrid(Current(a))
  {
    if a.scintillation then Failure(ScintillationOn)
    else if |a.layers| == 0 then Failure(NoLayers)
    else Success(PhaseSum(Current(a), |Current(a)[0].screen|))
  }

  // ---------------------------------------------------------------------
  // The cache: construction, rebuild, and the setters that mark it dirty.
  // ---------------------------------------------------------------------

  /** Construction succeeds exactly when there is a layer, and leaves a
      clean, current chain over exactly the given layers. */
  lemma CreateBuildsChain(ls: seq<Layer>, scintillation: bool, legacy: Option<bool>)
    ensures Create(ls, scintillation, legacy).Success? <==> |ls| >= 1
    ensures Create(ls, scintillation, legacy).Success? ==>
      var a := Create(ls, scintillation, legacy).value;
      && Coherent(a) && !a.dirty && ChainCurrent(a)
      && Current(a) == ls
      && a.scintillation == (if legacy.Some? then legacy.value else scintillation)
      && a.t == 0.0
  {
    if |ls| >= 1 {
      var a := Create(ls, scintillation, legacy).value;
      assert Current(a) == ls by {
        CreateLayers(ls, scintillation, legacy);
      }
      assert Coherent(a) && !a.dirty && ChainCurrent(a) by {
        CreateClean(ls, scintillation, legacy);
      }
    }
  }

  /** Construction over existing objects succeeds iff the list is non-empty;
      the atmosphere then holds exactly those objects, lists them as given,
      repeats included, and its chain is clean and current. */
  lemma CreateFromBuildsChain(pool: seq<Layer>, ids: seq<nat>, scintillation: bool, legacy: Option<bool>)
    requires InRange(pool, ids)
    ensures CreateFrom(pool, ids, scintillation, legacy).Success? <==> |ids| >= 1
    ensures CreateFrom(pool, ids, scintillation, legacy).Success? ==>
      var a := CreateFrom(pool, ids, scintillation, legacy).value;
      && Coherent(a) && !a.dirty && ChainCurrent(a)
      && a.pool == pool && a.layers == ids
      && a.scintillation == (if legacy.Some? then legacy.value else scintillation)
      && a.t == 0.0
  {
  }

  lemma CreateLayers(ls: seq<Layer>, scintillation: bool, legacy: Option<bool>)
    requires |ls| >= 1
    ensures Create(ls, scintillation, legacy).Success?
    ensures Current(Create(ls, scintillation, legacy).value) == ls
  {
    var a := Create(ls, scintillation, legacy).value;
    assert a.pool == ls && a.layers == FreshIds(0, |ls|);
    assert forall i :: 0 <= i < |ls| ==> Current(a)[i] == ls[i];
  }

  lemma CreateClean(ls: seq<Layer>, scintillation: bool, legacy: Option<bool>)
    requires |ls| >= 1
    ensures Create(ls, scintillation, legacy).Success?
    ensures var a := Create(ls, scintillation, legacy).value;
      Coherent(a) && !a.dirty && ChainCurrent(a)
  {
  }

  /** A rebuild succeeds exactly when there is a layer; it makes the chain
      current, clears the dirty flag and changes nothing else. */
  lemma CalculatePropagatorsCleans(a: Atmosphere)
    requires WellFormed(a)
    ensures CalculatePropagators(a).Success? <==> |a.layers| >= 1
    ensures CalculatePropagators(a).Success? ==>
      var b := CalculatePropagators(a).value;
      && Coherent(b) && !b.dirty && ChainCurrent(b)
      && b.(elements := a.elements, dirty := a.dirty) == a
  {
  }

  /** Creating layer objects leaves the current layers, the chain, the flag
      and the cache invariant as they were. */
  lemma AddLayersKeepsState(a: Atmosphere, ls: seq<Layer>)
    requires WellFormed(a)
    ensures var b := AddLayers(a, ls);
      && WellFormed(b) && (Coherent(b) <==> Coherent(a)) && b.pool[..|a.pool|] == a.pool && b.pool[|a.pool|..] == ls
      && Current(b) == Current(a)
      && (ChainCurrent(b) <==> ChainCurrent(a))
      && b.(pool := a.pool) == a
  {
    var b := AddLayers(a, ls);
    assert b.pool[..|a.pool|] == a.pool;
    assert b.pool[|a.pool|..] == ls;
    assert Current(b) == Current(a);
  }

  /** Assigning a list of layers (new or reused objects, repeats allowed)
      marks the chain dirty and keeps the cache invariant; the chain and
      every layer object stay as they were. */
  lemma SetLayersMarksDirty(a: Atmosphere, ids: seq<nat>)
    requires WellFormed(a) && InRange(a.pool, ids)
    ensures var b := SetLayers(a, ids);
      && Coherent(b) && b.dirty && b.layers == ids
      && (forall i :: 0 <= i < |ids| ==> Current(b)[i] == a.pool[ids[i]])
      && b.pool == a.pool && b.elements == a.elements
      && b.scintillation == a.scintillation && b.t == a.t
  {
  }

  /** As written, the scintillation setter keeps the cache invariant when the
      chain was clean: the flag is dirty exactly when the value changed. */
  lemma SetScintillationFromClean(a: Atmosphere, s: bool)
    requires Coherent(a) && !a.dirty
    ensures Coherent(SetScintillation(a, s))
    ensures SetScintillation(a, s).dirty <==> s != a.scintillation
    ensures SetScintillation(a, s).scintillation == s
  {
  }

  /** As written, re-assigning the current scintillation value after a list
      assignment clears the flag and keeps the old chain, so the cache
      invariant then holds exactly when the old chain happens to be the one
      the new list calls for; after an empty list it never does. */
  lemma SameScintillationDropsRebuild(a: Atmosphere, ids: seq<nat>)
    requires WellFormed(a) && InRange(a.pool, ids)
    ensures var b := SetScintillation(SetLayers(a, ids), a.scintillation);
      && WellFormed(b) && !b.dirty && b.layers == ids
      && b.elements == a.elements
      && (Coherent(b) <==> |ids| >= 1 && a.elements == FreshChain(b))
  {
  }

  /** As written, after an empty list and the same scintillation value,
      `forward` raises nothing and applies the old chain, although the
      rebuild it skips fails for want of a layer. */
  lemma EmptyListKeepsOldChain(a: Atmosphere, fwd: Propagator, w: Wave)
    requires WellFormed(a) && ChainFits(a.elements, a.pool, |w|) && KeepsGrid(fwd)
    ensures var b := SetScintillation(SetLayers(a, []), a.scintillation);
      && !Coherent(b) && WaveFits(b, |w|)
      && CalculatePropagators(b) == Failure(NoLayers)
      && Forward(b, fwd, w) == Success(Traversal(b, ApplyForward(a.elements, a.pool, fwd, w)))
  {
  }

  /** Re-assigning the very list in use to a clean atmosphere, then its own
      scintillation value, leaves it exactly as it was, chain current. */
  lemma ReusedLayersKeepChain(a: Atmosphere)
    requires Coherent(a) && !a.dirty
    ensures SetScintillation(SetLayers(a, a.layers), a.scintillation) == a
    ensures ChainCurrent(a)
  {
  }

  /** As written, re-assigning the current scintillation value after a list
      of new layer objects drops the pending rebuild: the flag is clean, yet
      the chain is the old one and names none of the new layers. */
  lemma NewLayersDropRebuild(a: Atmosphere, ls: seq<Layer>)
    requires WellFormed(a) && |ls| >= 1
    ensures var a1 := AddLayers(a, ls);
      var ids := FreshIds(|a.pool|, |ls|);
      && InRange(a1.pool, ids)
      && var b := SetScintillation(SetLayers(a1, ids), a.scintillation);
      && WellFormed(b) && !b.dirty
      && b.elements == a.elements
      && !ChainCurrent(b) && !Coherent(b)
  {
    var a1 := AddLayers(a, ls);
    var ids := FreshIds(|a.pool|, |ls|);
    var b := SetScintillation(SetLayers(a1, ids), a.scintillation);
    var h := Heights(Current(b));
    SortDescendingCorrect(h);
    var ord := SortDescending(h);
    ChainStartsWithHighest(h, ord, b.scintillation);
    var rebuilt := FreshChain(b);
    assert rebuilt[0] == LayerEl(b.layers[ord[0]]);
    assert b.layers[ord[0]] >= |a.pool|;
    if |b.elements| > 0 {
      assert b.elements[0].LayerEl? ==> b.elements[0].idx < |a.pool|;
      assert b.elements[0] != rebuilt[0];
    }
  }

  /** The corrected setter keeps a pending rebuild: the cache invariant holds
      after it from every state where it held before. */
  lemma KeepingDirtyPreservesCoherence(a: Atmosphere, s: bool)
    requires Coherent(a)
    ensures Coherent(SetScintillationKeepingDirty(a, s))
    ensures SetScintillationKeepingDirty(a, s).dirty <==> a.dirty || s != a.scintillation
    ensures SetScintillationKeepingDirty(a, s).scintillation == s
  {
  }

  // ---------------------------------------------------------------------
  // Passing wavefronts through the atmosphere.
  // ---------------------------------------------------------------------

  /** From a coherent state, `forward` rebuilds exactly when dirty (failing
      only for a dirty empty atmosphere), leaves a clean current chain, and
      applies the chain built from the current layers. */
  lemma ForwardUsesCurrentChain(a: Atmosphere, fwd: Propagator, w: Wave)
    requires Coherent(a) && WaveFits(a, |w|) && KeepsGrid(fwd)
    ensures Forward(a, fwd, w).Failure? <==> a.dirty && |a.layers| == 0
    ensures Forward(a, fwd, w).Success? ==>
      var tr := Forward(a, fwd, w).value;
      && |a.layers| >= 1
      && Coherent(tr.atmosphere) && !tr.atmosphere.dirty && ChainCurrent(tr.atmosphere)
      && tr.atmosphere.(elements := a.elements, dirty := a.dirty) == a
      && ChainFits(FreshChain(a), a.pool, |w|)
      && tr.wave == ApplyForward(FreshChain(a), a.pool, fwd, w)
  {
    RefreshFits(a, |w|);
  }

  /** The same for `backward`, which applies the current chain reversed. */
  lemma BackwardUsesCurrentChain(a: Atmosphere, back: Propagator, w: Wave)
    requires Coherent(a) && WaveFits(a, |w|) && KeepsGrid(back)
    ensures Backward(a, back, w).Failure? <==> a.dirty && |a.layers| == 0
    ensures Backward(a, back, w).Success? ==>
      var tr := Backward(a, back, w).value;
      && |a.layers| >= 1
      && Coherent(tr.atmosphere) && !tr.atmosphere.dirty && ChainCurrent(tr.atmosphere)
      && tr.atmosphere.(elements := a.elements, dirty := a.dirty) == a
      && ChainFits(FreshChain(a), a.pool, |w|)
      && tr.wave == ApplyBackward(FreshChain(a), a.pool, back, w)
  {
    RefreshFits(a, |w|);
  }

  /** `backward` undoes `forward` on the atmosphere `forward` leaves behind,
      given that backward propagation undoes forward propagation. */
  lemma AtmosphereRoundTrip(a: Atmosphere, fwd: Propagator, back: Propagator, w: Wave)
    requires WellFormed(a) && WaveFits(a, |w|)
    requires KeepsGrid(fwd) && KeepsGrid(back) && Undoes(back, fwd)
    ensures Forward(a, fwd, w).Success? ==>
      var tr := Forward(a, fwd, w).value;
      && WellFormed(tr.atmosphere) && WaveFits(tr.atmosphere, |tr.wave|)
      && Backward(tr.atmosphere, back, tr.wave) == Success(Traversal(tr.atmosphere, w))
  {
    RefreshFits(a, |w|);
    if Forward(a, fwd, w).Success? {
      var b := Refresh(a).value;
      ChainRoundTrip(b.elements, b.pool, fwd, back, w);
    }
  }

  // ---------------------------------------------------------------------
  // Aggregate controls.
  // ---------------------------------------------------------------------

  /** The chain depends on the layers only through their heights. */
  lemma SameHeightsSameChain(a: Atmosphere, b: Atmosphere)
    requires WellFormed(a) && WellFormed(b) && |a.layers| >= 1
    requires a.layers == b.layers && a.scintillation == b.scintillation
    requires forall i :: 0 <= i < |a.layers| ==> Current(a)[i].height == Current(b)[i].height
    ensures FreshChain(a) == FreshChain(b)
  {
    assert Heights(Current(a)) == Heights(Current(b));
  }

  /** `evolve_until` advances every current layer object once per listing
      (exactly once without repeats), records the time, and neither touches
      the dirty flag nor the chain. */
  lemma EvolveUntilEffect(a: Atmosphere, t: real, evolve: (Layer, real) -> Layer)
    requires WellFormed(a)
    ensures var b := EvolveUntil(a, t, evolve);
      && WellFormed(b) && b.t == t && |b.pool| == |a.pool|
      && b.dirty == a.dirty && b.elements == a.elements
      && b.layers == a.layers && b.scintillation == a.scintillation
      && (forall p :: 0 <= p < |a.pool| ==>
            b.pool[p] == Iterate(Advance(evolve, t), multiset(a.layers)[p], a.pool[p]))
      && (Distinct(a.layers) ==>
            forall i :: 0 <= i < |a.layers| ==> Current(b)[i] == evolve(Current(a)[i], t))
  {
    MapLayersEffect(a, Advance(evolve, t));
  }

  /** When evolving keeps heights, the cache invariant holds after it
      exactly when it held before. */
  lemma EvolveUntilKeepsCoherence(a: Atmosphere, t: real, evolve: (Layer, real) -> Layer)
    requires WellFormed(a)
    requires forall l, t' :: evolve(l, t').height == l.height
    ensures Coherent(EvolveUntil(a, t, evolve)) <==> Coherent(a)
  {
    MapLayersKeepsChain(a, Advance(evolve, t));
  }

  /** Without repeats, setting the total Cn^2 of layers with a non-zero
      total rescales every current layer once by the old total. */
  lemma SetCnSquaredRescales(a: Atmosphere, x: real)
    requires WellFormed(a) && Distinct(a.layers) && |a.layers| > 0 && CnSquared(a) != 0.0
    ensures SetCnSquared(a, x).Success?
    ensures Current(SetCnSquared(a, x).value) == Rescale(Current(a), CnSquared(a), x)
  {
    var total := CnSquared(a);
    MapLayersEffect(a, Rescaler(total, x));
    var b := MapLayers(a, Rescaler(total, x));
    assert Current(b) == Rescale(Current(a), total, x);
  }

  /** Setting the total Cn^2 fails exactly as `Redistribute` does; otherwise
      each current layer object is rescaled by the old total once per
      listing, and the cache invariant, chain and dirty flag are kept.
      Without repeats the layers are redistributed exactly as `Redistribute`
      does, so the getter then reads the requested total. */
  lemma SetCnSquaredEffect(a: Atmosphere, x: real)
    requires WellFormed(a)
    ensures SetCnSquared(a, x).Failure? <==> Redistribute(Current(a), x).Failure?
    ensures SetCnSquared(a, x).Success? ==>
      var b := SetCnSquared(a, x).value;
      && WellFormed(b) && (Coherent(b) <==> Coherent(a))
      && b.(pool := a.pool) == a && |b.pool| == |a.pool|
      && (|a.layers| == 0 ==> b == a)
      && (|a.layers| > 0 ==> CnSquared(a) != 0.0 && forall p :: 0 <= p < |a.pool| ==>
            b.pool[p] == Iterate(Rescaler(CnSquared(a), x), multiset(a.layers)[p], a.pool[p]))
      && (Distinct(a.layers) ==>
            && Current(b) == Redistribute(Current(a), x).value
            && CnSquared(b) == (if |a.layers| == 0 then 0.0 else x))
  {
    if |a.layers| > 0 && CnSquared(a) != 0.0 {
      var f := Rescaler(CnSquared(a), x);
      MapLayersEffect(a, f);
      MapLayersKeepsChain(a, f);
      if Distinct(a.layers) {
        SetCnSquaredRescales(a, x);
        RescaleCorrect(Current(a), x);
      }
    }
  }

  /** A layer object listed twice is rescaled twice: two listings of one
      layer of strength 1 give a total of 2; setting the total to 4 scales
      the layer to 2 and then to 4, so the getter reads 8. */
  lemma RepeatedLayerRescaledTwice()
    ensures Create([LowLayer], false, None).Success?
    ensures CreateFrom([LowLayer], [0, 0], false, None).Success?
    ensures var a := SetLayers(Create([LowLayer], false, None).value, [0, 0]);
      && CnSquared(a) == 2.0
      && SetCnSquared(a, 4.0).Success?
      && SetCnSquared(a, 4.0).value.pool[0].cnSquared == 4.0
      && CnSquared(SetCnSquared(a, 4.0).value) == 8.0
    ensures var a := CreateFrom([LowLayer], [0, 0], false, None).value;
      && CnSquared(a) == 2.0
      && SetCnSquared(a, 4.0).Success?
      && SetCnSquared(a, 4.0).value.pool[0].cnSquared == 4.0
      && CnSquared(SetCnSquared(a, 4.0).value) == 8.0
  {
    CreateLayers([LowLayer], false, None);
    DoubleListing(SetLayers(Create([LowLayer], false, None).value, [0, 0]));
    CreateFromBuildsChain([LowLayer], [0, 0], false, None);
    DoubleListing(CreateFrom([LowLayer], [0, 0], false, None).value);
  }

  /** Rescaling a list that names `LowLayer` twice. */
  lemma DoubleListing(a: Atmosphere)
    requires WellFormed(a) && a.pool == [LowLayer] && a.layers == [0, 0]
    ensures CnSquared(a) == 2.0
    ensures SetCnSquared(a, 4.0).Success?
    ensures SetCnSquared(a, 4.0).value.pool[0].cnSquared == 4.0
    ensures CnSquared(SetCnSquared(a, 4.0).value) == 8.0
  {
    assert Current(a) == [LowLayer, LowLayer];
    TwoListingsTotal(LowLayer);
    var f := Rescaler(2.0, 4.0);
    MapLayersEffect(a, f);
    var b := SetCnSquared(a, 4.0).value;
    assert multiset(a.layers)[0] == 2;
    assert Iterate(f, 2, LowLayer) == Iterate(f, 1, f(LowLayer));
    assert f(LowLayer).cnSquared == 2.0;
    assert f(f(LowLayer)).cnSquared == 4.0;
    assert b.pool[0].cnSquared == 4.0;
    assert Current(b) == [b.pool[0], b.pool[0]];
    TwoListingsTotal(b.pool[0]);
  }

  /** The total over a list naming one layer twice is twice its strength. */
  lemma TwoListingsTotal(l: Layer)
    ensures TotalCnSquared([l, l]) == 2.0 * l.cnSquared
  {
    assert [l][1..] == [];
    assert TotalCnSquared([l]) == l.cnSquared;
    assert [l, l][1..] == [l];
  }

  /** Setting the outer scale writes it into every current layer, repeats
      included, reads back as the written value, and keeps the cache
      invariant and dirty flag. */
  lemma SetOuterScaleAllEffect(a: Atmosphere, v: OuterScale)
    requires WellFormed(a)
    ensures var b := SetOuterScaleAll(a, v);
      && WellFormed(b) && (Coherent(b) <==> Coherent(a))
      && b.(pool := a.pool) == a && |b.pool| == |a.pool|
      && (forall p :: 0 <= p < |a.pool| ==>
            b.pool[p] == Iterate(Writer(v), multiset(a.layers)[p], a.pool[p]))
      && (forall p :: 0 <= p < |a.pool| ==>
            b.pool[p] == if p in multiset(a.layers) then SetOuterScale(a.pool[p], v) else a.pool[p])
      && Current(b) == BroadcastOuterScale(Current(a), v)
      && CommonOuterScale(b) == (if |a.layers| == 0 then Failure(NoLayers) else Success(v))
  {
    var f := Writer(v);
    MapLayersEffect(a, f);
    MapLayersKeepsChain(a, f);
    WriterBroadcasts(a, v);
    BroadcastThenRead(Current(a), v);
    var b := SetOuterScaleAll(a, v);
    forall p | 0 <= p < |a.pool| && p in multiset(a.layers)
      ensures b.pool[p] == SetOuterScale(a.pool[p], v)
    {
      IterateIdempotent(f, multiset(a.layers)[p], a.pool[p]);
    }
  }

  /** Writing the outer scale into each listed object, once per listing,
      leaves every current layer holding it once. */
  lemma WriterBroadcasts(a: Atmosphere, v: OuterScale)
    requires InRange(a.pool, a.layers)
    ensures Current(SetOuterScaleAll(a, v)) == BroadcastOuterScale(Current(a), v)
  {
    var b := SetOuterScaleAll(a, v);
    var f := Writer(v);
    MapLayersEffect(a, f);
    forall i | 0 <= i < |a.layers|
      ensures Current(b)[i] == SetOuterScale(Current(a)[i], v)
    {
      assert a.layers[i] in multiset(a.layers);
      IterateIdempotent(f, multiset(a.layers)[a.layers[i]], Current(a)[i]);
    }
  }

  /** `phase_for` fails exactly with scintillation or without layers;
      otherwise each sample is the sum of that sample over all layers. */
  lemma PhaseForCases(a: Atmosphere)
    requires InRange(a.pool, a.layers) && UniformGrid(Current(a))
    ensures PhaseFor(a).Failure? <==> a.scintillation || |a.layers| == 0
    ensures a.scintillation ==> PhaseFor(a) == Failure(ScintillationOn)
    ensures PhaseFor(a).Success? ==>
      var p := PhaseFor(a).value;
      && |p| == |Current(a)[0].screen|
      && forall k :: 0 <= k < |p| ==> p[k] == SumBy(SampleOf(Current(a), k), Indices(|a.layers|))
  {
    if !a.scintillation && |a.layers| > 0 {
      var p := PhaseFor(a).value;
      forall k | 0 <= k < |p|
        ensures p[k] == SumBy(SampleOf(Current(a), k), Indices(|a.layers|))
      {
        PhaseSumSamples(Current(a), |Current(a)[0].screen|, k);
      }
    }
  }

  /** The chain visiting the objects at positions `ord` of `ids`, with no
      propagation. */
  function LayersChain(ids: seq<nat>, ord: seq<nat>): (r: seq<Element>)
    requires InRange(ids, ord)
    ensures |r| == |ord|
    ensures forall i :: 0 <= i < |ord| ==> r[i] == LayerEl(ids[ord[i]])
  {
    seq(|ord|, i requires 0 <= i < |ord| => LayerEl(ids[ord[i]]))
  }

  /** From a coherent state with layers, `forward` applies the fresh chain. */
  lemma ForwardAppliesFreshChain(a: Atmosphere, fwd: Propagator, w: Wave)
    requires Coherent(a) && |a.layers| >= 1 && ScreensFit(Current(a), |w|) && KeepsGrid(fwd)
    ensures WaveFits(a, |w|) && ChainFits(FreshChain(a), a.pool, |w|)
    ensures Forward(a, fwd, w).Success?
    ensures Forward(a, fwd, w).value.wave == ApplyForward(FreshChain(a), a.pool, fwd, w)
  {
    CoherentFits(a, |w|);
    FreshChainFits(a, |w|);
    RefreshFits(a, |w|);
  }

  /** Without scintillation the fresh chain lists the current layer
      objects in descending order of height and nothing else. */
  lemma FreshChainLayersOnly(a: Atmosphere)
    requires WellFormed(a) && !a.scintillation && |a.layers| >= 1
    ensures var ord := SortDescending(Heights(Current(a)));
      && DescendingOrder(Heights(Current(a)), ord)
      && FreshChain(a) == LayersChain(a.layers, ord)
  {
    var h := Heights(Current(a));
    SortDescendingCorrect(h);
    ChainWithoutScintillation(h, SortDescending(h));
  }

  /** A layers-only chain over current layers of `n` samples applies only
      layers of `n` samples. */
  lemma LayersChainFits(a: Atmosphere, ord: seq<nat>, n: nat)
    requires InRange(a.pool, a.layers) && ScreensFit(Current(a), n)
    requires InRange(a.layers, ord)
    ensures ChainFits(LayersChain(a.layers, ord), a.pool, n)
  {
    var es := LayersChain(a.layers, ord);
    forall i | 0 <= i < |es|
      ensures |a.pool[a.layers[ord[i]]].screen| == n
    {
      assert Current(a)[ord[i]] == a.pool[a.layers[ord[i]]];
    }
  }

  /** One sample of the wavefront after a layers-only chain over the current
      layers in the order `ord`. */
  lemma ForwardSample(a: Atmosphere, ord: seq<nat>, fwd: Propagator, w: Wave, k: nat)
    requires WellFormed(a) && ScreensFit(Current(a), |w|) && KeepsGrid(fwd) && k < |w|
    requires InRange(Heights(Current(a)), ord)
    requires multiset(ord) == multiset(Indices(|a.layers|))
    ensures ChainFits(LayersChain(a.layers, ord), a.pool, |w|)
    ensures ApplyForward(LayersChain(a.layers, ord), a.pool, fwd, w)[k] == w[k] + PhaseSum(Current(a), |w|)[k]
  {
    var es := LayersChain(a.layers, ord);
    var cur := Current(a);
    LayersChainFits(a, ord, |w|);
    ForwardThroughLayers(es, a.pool, fwd, w, k);
    SumByPointwise(SampleOf(a.pool, k), Ids(es), SampleOf(cur, k), ord);
    SumByPermutation(SampleOf(cur, k), ord, Indices(|cur|));
    PhaseSumSamples(cur, |w|, k);
  }

  /** Without scintillation, `forward` applies the current layers in
      descending order of height. */
  lemma ForwardLayersInOrder(a: Atmosphere, fwd: Propagator, w: Wave)
    requires Coherent(a) && !a.scintillation && |a.layers| >= 1
    requires ScreensFit(Current(a), |w|) && KeepsGrid(fwd)
    ensures WaveFits(a, |w|)
    ensures DescendingOrder(Heights(Current(a)), SortDescending(Heights(Current(a))))
    ensures ChainFits(LayersChain(a.layers, SortDescending(Heights(Current(a)))), a.pool, |w|)
    ensures Forward(a, fwd, w).Success?
    ensures Forward(a, fwd, w).value.wave
         == ApplyForward(LayersChain(a.layers, SortDescending(Heights(Current(a)))), a.pool, fwd, w)
  {
    FreshChainLayersOnly(a);
    ForwardAppliesFreshChain(a, fwd, w);
  }

  lemma PhaseForIsPhaseSum(a: Atmosphere, n: nat)
    requires WellFormed(a) && !a.scintillation && |a.layers| >= 1
    requires ScreensFit(Current(a), n)
    ensures UniformGrid(Current(a))
    ensures PhaseFor(a) == Success(PhaseSum(Current(a), n))
  {
  }

  /** Without scintillation, passing a wavefront forward through the
      atmosphere adds exactly the unwrapped phase `phase_for` reports, even
      though the chain visits the layers by height and the sum visits them
      in list order. */
  lemma ForwardAddsUnwrappedPhase(a: Atmosphere, fwd: Propagator, w: Wave)
    requires Coherent(a) && !a.scintillation && |a.layers| >= 1
    requires ScreensFit(Current(a), |w|) && KeepsGrid(fwd)
    ensures WaveFits(a, |w|) && UniformGrid(Current(a))
    ensures PhaseFor(a).Success? && Forward(a, fwd, w).Success?
    ensures Forward(a, fwd, w).value.wave == AddPhase(w, PhaseFor(a).value)
  {
    var cur := Current(a);
    var ord := SortDescending(Heights(cur));
    PhaseForIsPhaseSum(a, |w|);
    ForwardLayersInOrder(a, fwd, w);
    var wave := Forward(a, fwd, w).value.wave;
    var ph := PhaseSum(cur, |w|);
    forall k | 0 <= k < |w|
      ensures wave[k] == w[k] + ph[k]
    {
      ForwardSample(a, ord, fwd, w, k);
    }
    AddPhaseBySample(w, ph, wave);
  }

  // ---------------------------------------------------------------------
  // The dropped rebuild on a concrete input.
  // ---------------------------------------------------------------------

  /** A layer at 1 m whose screen adds one radian. */
  const LowLayer: Layer := Layer(1.0, 1.0, Infinite, [0.0, 0.0], [1.0])

  /** A layer at 2 m whose screen adds two radians. */
  const HighLayer: Layer := Layer(2.0, 1.0, Infinite, [0.0, 0.0], [2.0])

  /** Build an atmosphere over `LowLayer` without scintillation, assign the
      list `[HighLayer]`, then assign scintillation its current value. As
      written, `forward` then applies the replaced layer (adding one radian);
      with the pending rebuild kept it applies the assigned one (adding
      two). */
  lemma StaleChainWitness(fwd: Propagator)
    requires KeepsGrid(fwd)
    ensures Create([LowLayer], false, None).Success?
    ensures var a := SetLayers(AddLayers(Create([LowLayer], false, None).value, [HighLayer]), [1]);
      var asWritten := SetScintillation(a, false);
      var corrected := SetScintillationKeepingDirty(a, false);
      && WellFormed(asWritten) && WaveFits(asWritten, 1)
      && WellFormed(corrected) && WaveFits(corrected, 1)
      && Forward(asWritten, fwd, [0.0]) == Success(Traversal(asWritten, [1.0]))
      && Forward(corrected, fwd, [0.0]).Success?
      && Forward(corrected, fwd, [0.0]).value.wave == [2.0]
  {
    CreateBuildsChain([LowLayer], false, None);
    var a0 := Create([LowLayer], false, None).value;
    var h0 := Heights(Current(a0));
    assert h0 == [1.0];
    assert SortDescending(h0) == [0];
    assert BuildChain(h0, false) == [LayerEl(0)];
    assert a0.elements == [LayerEl(0)];
    var a := SetLayers(AddLayers(a0, [HighLayer]), [1]);
    assert a.pool == [LowLayer, HighLayer] && a.layers == [1];
    var asWritten := SetScintillation(a, false);
    assert !asWritten.dirty;
    assert ApplyForward([LayerEl(0)], asWritten.pool, fwd, [0.0])
        == ApplyForward([], asWritten.pool, fwd, AddPhase([0.0], [1.0]));
    assert AddPhase([0.0], [1.0]) == [1.0];
    var corrected := SetScintillationKeepingDirty(a, false);
    assert corrected.dirty;
    var h1 := Heights(Current(corrected));
    assert h1 == [2.0];
    assert SortDescending(h1) == [0];
    assert FreshChain(corrected) == [LayerEl(1)];
    assert ApplyForward([LayerEl(1)], corrected.pool, fwd, [0.0])
        == ApplyForward([], corrected.pool, fwd, AddPhase([0.0], [2.0]));
    assert AddPhase([0.0], [2.0]) == [2.0];
  }

  /** Evolving a layer to a screen of five radians. */
  function Brighten(l: Layer, t: real): Layer
  {
    l.(screen := [5.0])
  }

  /** An atmosphere built over one layer without scintillation. */
  lemma CreateOneLayer(l: Layer)
    ensures Create([l], false, None) == Success(Atmosphere([l], [0], false, false, [LayerEl(0)], 0.0))
  {
    var h := [l.height];
    assert SortPrefix(h, 1) == Insert(h, 0, []) == [0];
    assert BuildChain(h, false) == [LayerEl(0)];
    var a := SetLayers(AddLayers(Atmosphere([], [], false, true, [], 0.0), [l]), FreshIds(0, 1));
    assert a.pool == [l] && a.layers == [0];
    assert Heights(Current(a)) == h;
    assert Resolve([LayerEl(0)], [0]) == [LayerEl(0)];
    assert FreshChain(a) == [LayerEl(0)];
  }

  /** Re-assigning the list in use, then the same scintillation value, keeps
      the chain on the very layer object in the list: after evolving it,
      `forward` applies the evolved layer. */
  lemma ReusedLayerEvolvesInChain(fwd: Propagator)
    requires KeepsGrid(fwd)
    ensures Create([LowLayer], false, None).Success?
    ensures var a0 := Create([LowLayer], false, None).value;
      var a := EvolveUntil(SetScintillation(SetLayers(a0, [0]), false), 1.0, Brighten);
      && WellFormed(a) && WaveFits(a, 1)
      && Forward(a, fwd, [0.0]).Success?
      && Forward(a, fwd, [0.0]).value.wave == [5.0]
  {
    CreateOneLayer(LowLayer);
    var a0 := Create([LowLayer], false, None).value;
    assert SetScintillation(SetLayers(a0, [0]), false) == a0;
    var evolved := LowLayer.(screen := [5.0]);
    var a := EvolveUntil(a0, 1.0, Brighten);
    assert a.pool == [evolved] by {
      EvolveUntilEffect(a0, 1.0, Brighten);
      assert multiset(a0.layers)[0] == 1;
      var f := Advance(Brighten, 1.0);
      assert f(LowLayer) == Brighten(LowLayer, 1.0) == evolved;
      assert Iterate(f, 1, LowLayer) == Iterate(f, 0, f(LowLayer)) == f(LowLayer);
      assert |a.pool| == 1 && a.pool[0] == evolved;
    }
    assert a == Atmosphere([evolved], [0], false, false, [LayerEl(0)], 1.0);
    assert ApplyForward([LayerEl(0)], a.pool, fwd, [0.0])
        == ApplyForward([], a.pool, fwd, AddPhase([0.0], [5.0]));
    assert AddPhase([0.0], [5.0]) == [5.0];
  }

  /** A layer at 1 m on a grid of two samples. */
  const WideLayer: Layer := Layer(1.0, 1.0, Infinite, [0.0, 0.0], [1.0, 1.0])

  /** An atmosphere built over one layer, with its list then replaced by
      `[HighLayer]`: the rebuild it awaits chains only the new layer. */
  lemma ReplacedByHighLayer(l: Layer)
    ensures Create([l], false, None).Success?
    ensures var a := SetLayers(AddLayers(Create([l], false, None).value, [HighLayer]), [1]);
      && a == Atmosphere([l, HighLayer], [1], false, true, [LayerEl(0)], 0.0)
      && Current(a) == [HighLayer]
      && FreshChain(a) == [LayerEl(1)]
  {
    CreateOneLayer(l);
    var a := SetLayers(AddLayers(Create([l], false, None).value, [HighLayer]), [1]);
    assert Current(a) == [HighLayer];
    var h := Heights(Current(a));
    assert h == [2.0];
    assert SortPrefix(h, 1) == Insert(h, 0, []) == [0];
    assert BuildChain(h, false) == [LayerEl(0)];
    assert Resolve([LayerEl(0)], [1]) == [LayerEl(1)];
  }

  /** Build over `WideLayer`, then assign `[HighLayer]`, whose grid has one
      sample: `forward` of a one-sample wavefront rebuilds over the new
      layer and never reads the retired wide one, although not every
      object ever created fits the wavefront. */
  lemma RetiredLayerIgnored(fwd: Propagator)
    requires KeepsGrid(fwd)
    ensures Create([WideLayer], false, None).Success?
    ensures var a := SetLayers(AddLayers(Create([WideLayer], false, None).value, [HighLayer]), [1]);
      && WellFormed(a) && !ScreensFit(a.pool, 1) && WaveFits(a, 1)
      && Forward(a, fwd, [0.0]).Success?
      && Forward(a, fwd, [0.0]).value.wave == [2.0]
  {
    ReplacedByHighLayer(WideLayer);
    var a := SetLayers(AddLayers(Create([WideLayer], false, None).value, [HighLayer]), [1]);
    assert |a.pool[0].screen| == 2;
    assert ApplyForward([LayerEl(1)], a.pool, fwd, [0.0])
        == ApplyForward([], a.pool, fwd, AddPhase([0.0], [2.0]));
    assert AddPhase([0.0], [2.0]) == [2.0];
  }
}

=== FILE: chain.dfy ===
/** The propagation chain of a multi-layer atmosphere: layers sorted by
    descending height, with a propagation step over every height gap when
    scintillation is modelled. */
module Chain {

  /** One entry of the chain: a layer (by index) or a free-space propagation
      over a distance. */
  datatype Element = LayerEl(idx: nat) | Prop(dist: real)

  /** The sequence 0, 1, ..., n - 1. */
  function Indices(n: nat): (r: seq<nat>)
    ensures |r| == n
    ensures forall i :: 0 <= i < n ==> r[i] == i
  {
    if n == 0 then [] else Indices(n - 1) + [n - 1]
  }

  /** Every entry of `ord` indexes `h`. */
  predicate InRange<T>(h: seq<T>, ord: seq<nat>)
  {
    forall i :: 0 <= i < |ord| ==> ord[i] < |h|
  }

  /** The heights read through `ord` never increase. */
  predicate NonIncreasing(h: seq<real>, ord: seq<nat>)
    requires InRange(h, ord)
  {
    forall i, j :: 0 <= i < j < |ord| ==> h[ord[i]] >= h[ord[j]]
  }

  /** `ord` lists every index of `h` exactly once, highest layer first. Among
      equal heights any order is allowed. */
  predicate DescendingOrder(h: seq<real>, ord: seq<nat>)
  {
    && InRange(h, ord)
    && multiset(ord) == multiset(Indices(|h|))
    && NonIncreasing(h, ord)
  }

  /** Inserts index `j` after every entry at least as high as `h[j]`. */
  function Insert(h: seq<real>, j: nat, ord: seq<nat>): (r: seq<nat>)
    requires j < |h| && InRange(h, ord)
    ensures |r| == |ord| + 1
    ensures multiset(r) == multiset(ord) + multiset{j}
    ensures InRange(h, r)
  {
    if ord == [] then [j]
    else if h[ord[0]] >= h[j] then
      assert ord == [ord[0]] + ord[1..];
      [ord[0]] + Insert(h, j, ord[1..])
    else [j] + ord
  }

  /** Inserting keeps every height at most `bound` when it held before. */
  lemma {:induction false} InsertBounded(h: seq<real>, j: nat, ord: seq<nat>, bound: real)
    requires j < |h| && InRange(h, ord) && h[j] <= bound
    requires forall k :: 0 <= k < |ord| ==> h[ord[k]] <= bound
    ensures forall k :: 0 <= k < |ord| + 1 ==> h[Insert(h, j, ord)[k]] <= bound
  {
    if ord != [] && h[ord[0]] >= h[j] {
      InsertBounded(h, j, ord[1..], bound);
      var r := Insert(h, j, ord);
      forall k | 1 <= k < |ord| + 1
        ensures h[r[k]] <= bound
      {
        assert r[k] == Insert(h, j, ord[1..])[k - 1];
      }
    }
  }

  lemma {:induction false} InsertKeepsOrder(h: seq<real>, j: nat, ord: seq<nat>)
    requires j < |h| && InRange(h, ord) && NonIncreasing(h, ord)
    ensures NonIncreasing(h, Insert(h, j, ord))
  {
    if ord == [] {
    } else if h[ord[0]] >= h[j] {
      var rest := Insert(h, j, ord[1..]);
      InsertKeepsOrder(h, j, ord[1..]);
      forall k | 0 <= k < |ord[1..]|
        ensures h[ord[1..][k]] <= h[ord[0]]
      {
        assert ord[1..][k] == ord[k + 1];
      }
      InsertBounded(h, j, ord[1..], h[ord[0]]);
      var r := [ord[0]] + rest;
      forall a, b | 0 <= a < b < |r|
        ensures h[r[a]] >= h[r[b]]
      {
        if a > 0 {
          assert r[a] == rest[a - 1] && r[b] == rest[b - 1];
        } else {
          assert r[b] == rest[b - 1];
        }
      }
    } else {
    }
  }

  /** The indices 0 .. n - 1 of `h`, sorted by descending height. */
  function SortPrefix(h: seq<real>, n: nat): (r: seq<nat>)
    requires n <= |h|
    ensures |r| == n
    ensures InRange(h, r)
    ensures multiset(r) == multiset(Indices(n))
  {
    if n == 0 then [] else Insert(h, n - 1, SortPrefix(h, n - 1))
  }

  /** The order in which `calculate_propagators` visits the layers. */
  function SortDescending(h: seq<real>): (r: seq<nat>)
  {
    SortPrefix(h, |h|)
  }

  lemma {:induction false} SortPrefixOrdered(h: seq<real>, n: nat)
    requires n <= |h|
    ensures NonIncreasing(h, SortPrefix(h, n))
  {
    if n > 0 {
      SortPrefixOrdered(h, n - 1);
      InsertKeepsOrder(h, n - 1, SortPrefix(h, n - 1));
    }
  }

  /** The sort yields a permutation of the layer indices, highest first. */
  lemma SortDescendingCorrect(h: seq<real>)
    ensures DescendingOrder(h, SortDescending(h))
    ensures |SortDescending(h)| == |h|
  {
    SortPrefixOrdered(h, |h|);
  }

  /** The chain starts with the highest layer. */
  lemma ChainStartsWithHighest(h: seq<real>, ord: seq<nat>, scint: bool)
    requires InRange(h, ord) && |ord| >= 1
    ensures |BuildChainFrom(h, ord, scint)| >= 1
    ensures BuildChainFrom(h, ord, scint)[0] == LayerEl(ord[0])
  {
    var inner := Interleave(h, ord, scint);
    assert inner[0] == LayerEl(ord[0]);
    assert BuildChainFrom(h, ord, scint)[0] == inner[0];
  }

  /** Every layer entry of `es` is an index below `n`. */
  predicate LayersIn(es: seq<Element>, n: nat)
  {
    forall i :: 0 <= i < |es| ==> es[i].LayerEl? ==> es[i].idx < n
  }

  /** The layers of `ord` in order, with a propagation over each gap between
      consecutive layers when `scint` holds. */
  function Interleave(h: seq<real>, ord: seq<nat>, scint: bool): (r: seq<Element>)
    requires InRange(h, ord)
    ensures LayersIn(r, |h|)
    decreases |ord|
  {
    if |ord| == 0 then []
    else if |ord| == 1 then [LayerEl(ord[0])]
    else
      [LayerEl(ord[0])]
      + (if scint then [Prop(h[ord[0]] - h[ord[1]])] else [])
      + Interleave(h, ord[1..], scint)
  }

  /** The chain for a given descending order: the interleaved layers, then a
      final propagation down to the ground when scintillation is modelled and
      the lowest layer is above it. */
  function BuildChainFrom(h: seq<real>, ord: seq<nat>, scint: bool): (r: seq<Element>)
    requires InRange(h, ord) && |ord| >= 1
    ensures LayersIn(r, |h|)
  {
    var lowest := h[ord[|ord| - 1]];
    Interleave(h, ord, scint) + (if scint && lowest > 0.0 then [Prop(lowest)] else [])
  }

  /** The chain `calculate_propagators` builds from the layer heights. */
  function BuildChain(h: seq<real>, scint: bool): (r: seq<Element>)
    requires |h| >= 1
    ensures LayersIn(r, |h|)
  {
    SortDescendingCorrect(h);
    BuildChainFrom(h, SortDescending(h), scint)
  }

  /** The layer indices of a chain, in chain order. */
  function LayerEntries(es: seq<Element>): (r: seq<nat>)
  {
    if es == [] then []
    else if es[0].LayerEl? then [es[0].idx] + LayerEntries(es[1..])
    else LayerEntries(es[1..])
  }

  lemma {:induction false} LayerEntriesAppend(a: seq<Element>, b: seq<Element>)
    ensures LayerEntries(a + b) == LayerEntries(a) + LayerEntries(b)
  {
    if a != [] {
      assert (a + b)[1..] == a[1..] + b;
      LayerEntriesAppend(a[1..], b);
    } else {
      assert a + b == b;
    }
  }

  /** The sum of all propagation distances of a chain. */
  function TotalDistance(es: seq<Element>): real
  {
    if es == [] then 0.0
    else (if es[0].Prop? then es[0].dist else 0.0) + TotalDistance(es[1..])
  }

  lemma {:induction false} TotalDistanceAppend(a: seq<Element>, b: seq<Element>)
    ensures TotalDistance(a + b) == TotalDistance(a) + TotalDistance(b)
  {
    if a != [] {
      assert (a + b)[1..] == a[1..] + b;
      TotalDistanceAppend(a[1..], b);
    } else {
      assert a + b == b;
    }
  }

  lemma {:induction false} InterleaveLayers(h: seq<real>, ord: seq<nat>, scint: bool)
    requires InRange(h, ord)
    ensures LayerEntries(Interleave(h, ord, scint)) == ord
  {
    if |ord| == 1 {
      assert LayerEntries([LayerEl(ord[0])]) == [ord[0]] + LayerEntries([]);
    } else if |ord| > 1 {
      var p: seq<Element> := if scint then [Prop(h[ord[0]] - h[ord[1]])] else [];
      var tail := Interleave(h, ord[1..], scint);
      InterleaveLayers(h, ord[1..], scint);
      LayerEntriesAppend([LayerEl(ord[0])] + p, tail);
      LayerEntriesAppend([LayerEl(ord[0])], p);
      assert LayerEntries([LayerEl(ord[0])]) == [ord[0]] + LayerEntries([]);
      if scint {
        assert LayerEntries(p) == LayerEntries(p[1..]);
        assert p[1..] == [];
      }
      assert ord == [ord[0]] + ord[1..];
    }
  }

  /** Ordering: reading the layer entries of the chain in order gives exactly
      `ord`, so every layer occurs once and heights never increase. */
  lemma ChainLayerOrder(h: seq<real>, ord: seq<nat>, scint: bool)
    requires InRange(h, ord) && |ord| >= 1
    ensures LayerEntries(BuildChainFrom(h, ord, scint)) == ord
  {
    var lowest := h[ord[|ord| - 1]];
    var trailing: seq<Element> := if scint && lowest > 0.0 then [Prop(lowest)] else [];
    InterleaveLayers(h, ord, scint);
    LayerEntriesAppend(Interleave(h, ord, scint), trailing);
    if trailing != [] {
      assert LayerEntries(trailing) == LayerEntries(trailing[1..]);
      assert trailing[1..] == [];
    }
  }

  /** The layer entries of the chain built from the heights are a permutation
      of the layer indices with non-increasing heights. */
  lemma BuildChainOrdering(h: seq<real>, scint: bool)
    requires |h| >= 1
    ensures DescendingOrder(h, LayerEntries(BuildChain(h, scint)))
  {
    SortDescendingCorrect(h);
    ChainLayerOrder(h, SortDescending(h), scint);
  }

  lemma {:induction false} InterleaveWithout(h: seq<real>, ord: seq<nat>)
    requires InRange(h, ord)
    ensures |Interleave(h, ord, false)| == |ord|
    ensures forall i :: 0 <= i < |ord| ==> Interleave(h, ord, false)[i] == LayerEl(ord[i])
  {
    if |ord| > 1 {
      InterleaveWithout(h, ord[1..]);
    }
  }

  /** Without scintillation the chain is exactly the sorted layers, with no
      propagation at all. */
  lemma ChainWithoutScintillation(h: seq<real>, ord: seq<nat>)
    requires InRange(h, ord) && |ord| >= 1
    ensures |BuildChainFrom(h, ord, false)| == |ord|
    ensures forall i :: 0 <= i < |ord| ==> BuildChainFrom(h, ord, false)[i] == LayerEl(ord[i])
    ensures TotalDistance(BuildChainFrom(h, ord, false)) == 0.0
  {
    InterleaveWithout(h, ord);
    var es := BuildChainFrom(h, ord, false);
    assert es == Interleave(h, ord, false);
    NoPropNoDistance(es);
  }

  lemma {:induction false} NoPropNoDistance(es: seq<Element>)
    requires forall i :: 0 <= i < |es| ==> es[i].LayerEl?
    ensures TotalDistance(es) == 0.0
  {
    if es != [] {
      NoPropNoDistance(es[1..]);
    }
  }

  lemma {:induction false} InterleaveWith(h: seq<real>, ord: seq<nat>)
    requires InRange(h, ord) && |ord| >= 1
    ensures |Interleave(h, ord, true)| == 2 * |ord| - 1
    ensures forall i :: 0 <= i < |ord| ==> Interleave(h, ord, true)[2 * i] == LayerEl(ord[i])
    ensures forall i :: 0 <= i < |ord| - 1 ==>
      Interleave(h, ord, true)[2 * i + 1] == Prop(h[ord[i]] - h[ord[i + 1]])
    ensures TotalDistance(Interleave(h, ord, true)) == h[ord[0]] - h[ord[|ord| - 1]]
  {
    if |ord| > 1 {
      var rest := ord[1..];
      InterleaveWith(h, rest);
      var head: seq<Element> := [LayerEl(ord[0]), Prop(h[ord[0]] - h[ord[1]])];
      var tail := Interleave(h, rest, true);
      assert Interleave(h, ord, true) == head + tail;
      forall i | 1 <= i < |ord|
        ensures (head + tail)[2 * i] == LayerEl(ord[i])
      {
        assert (head + tail)[2 * i] == tail[2 * (i - 1)];
        assert rest[i - 1] == ord[i];
      }
      forall i | 1 <= i < |ord| - 1
        ensures (head + tail)[2 * i + 1] == Prop(h[ord[i]] - h[ord[i + 1]])
      {
        assert (head + tail)[2 * i + 1] == tail[2 * (i - 1) + 1];
        assert rest[i - 1] == ord[i] && rest[i] == ord[i + 1];
      }
    }
    InterleaveDistance(h, ord);
  }

  /** With scintillation the interleaved distances telescope from the first
      height of the order to its last. */
  lemma {:induction false} InterleaveDistance(h: seq<real>, ord: seq<nat>)
    requires InRange(h, ord) && |ord| >= 1
    ensures TotalDistance(Interleave(h, ord, true)) == h[ord[0]] - h[ord[|ord| - 1]]
  {
    if |ord| > 1 {
      var rest := ord[1..];
      InterleaveDistance(h, rest);
      var head: seq<Element> := [LayerEl(ord[0]), Prop(h[ord[0]] - h[ord[1]])];
      var tail := Interleave(h, rest, true);
      assert Interleave(h, ord, true) == head + tail;
      TotalDistanceAppend(head, tail);
      assert TotalDistance(head) == h[ord[0]] - h[ord[1]] by {
        assert head[1..][1..] == [];
      }
      assert rest[|rest| - 1] == ord[|ord| - 1];
    }
  }

  /** Interleaving: with scintillation each pair of consecutive sorted layers
      has exactly one propagation between them, over the (non-negative) height
      difference, even when that difference is zero. */
  lemma ChainWithScintillation(h: seq<real>, ord: seq<nat>)
    requires InRange(h, ord) && NonIncreasing(h, ord) && |ord| >= 1
    ensures 2 * |ord| - 1 <= |BuildChainFrom(h, ord, true)| <= 2 * |ord|
    ensures forall i :: 0 <= i < |ord| ==> BuildChainFrom(h, ord, true)[2 * i] == LayerEl(ord[i])
    ensures forall i :: 0 <= i < |ord| - 1 ==>
      && BuildChainFrom(h, ord, true)[2 * i + 1] == Prop(h[ord[i]] - h[ord[i + 1]])
      && BuildChainFrom(h, ord, true)[2 * i + 1].dist >= 0.0
  {
    InterleaveWith(h, ord);
    var inner := Interleave(h, ord, true);
    var es := BuildChainFrom(h, ord, true);
    assert es[..|inner|] == inner;
    forall i | 0 <= i < |ord| - 1
      ensures es[2 * i + 1] == Prop(h[ord[i]] - h[ord[i + 1]])
      ensures es[2 * i + 1].Prop? && es[2 * i + 1].dist >= 0.0
    {
      assert es[2 * i + 1] == inner[2 * i + 1];
      assert h[ord[i]] >= h[ord[i + 1]];
    }
  }

  /** Trailing propagator: a final propagation over the lowest height is
      appended exactly when scintillation is modelled and the lowest layer is
      above the ground; the distances then telescope to the highest height,
      or to the height span when the lowest layer is not above ground. */
  lemma ChainTrailingPropagator(h: seq<real>, ord: seq<nat>, scint: bool)
    requires InRange(h, ord) && |ord| >= 1
    ensures var es := BuildChainFrom(h, ord, scint);
      var highest := h[ord[0]];
      var lowest := h[ord[|ord| - 1]];
      && (|es| == 2 * |ord| <==> scint && lowest > 0.0)
      && (scint && lowest > 0.0 ==> es[|es| - 1] == Prop(lowest))
      && (scint && lowest > 0.0 ==> TotalDistance(es) == highest)
      && (scint && lowest <= 0.0 ==> TotalDistance(es) == highest - lowest)
      && (!scint ==> TotalDistance(es) == 0.0)
  {
    var lowest := h[ord[|ord| - 1]];
    var trailing: seq<Element> := if scint && lowest > 0.0 then [Prop(lowest)] else [];
    if scint {
      InterleaveWith(h, ord);
      TotalDistanceAppend(Interleave(h, ord, true), trailing);
      if trailing != [] {
        assert TotalDistance(trailing) == lowest + TotalDistance(trailing[1..]);
        assert trailing[1..] == [];
      }
    } else {
      ChainWithoutScintillation(h, ord);
    }
  }

  /** Unfolding the interleaving of a suffix of `ord` by one layer. */
  lemma InterleaveStep(h: seq<real>, ord: seq<nat>, i: nat, scint: bool)
    requires InRange(h, ord) && i < |ord|
    ensures Interleave(h, ord[i..], scint)
         == [LayerEl(ord[i])]
            + (if scint && i < |ord| - 1 then [Prop(h[ord[i]] - h[ord[i + 1]])] else [])
            + Interleave(h, ord[i + 1..], scint)
  {
    assert ord[i..][1..] == ord[i + 1..];
    if i == |ord| - 1 {
      assert ord[i + 1..] == [];
    }
  }

  /** One turn of the loop of `calculate_propagators` keeps the elements
      built so far a prefix of the interleaved chain. */
  lemma CalculateStep(h: seq<real>, ord: seq<nat>, i: nat, scint: bool, done: seq<Element>, d: real)
    requires InRange(h, ord) && i < |ord|
    requires done + Interleave(h, ord[i..], scint) == Interleave(h, ord, scint)
    requires i < |ord| - 1 ==> d == h[ord[i]] - h[ord[i + 1]]
    ensures done + ([LayerEl(ord[i])] + (if scint && i < |ord| - 1 then [Prop(d)] else []))
            + Interleave(h, ord[i + 1..], scint)
         == Interleave(h, ord, scint)
  {
    InterleaveStep(h, ord, i, scint);
    var step := [LayerEl(ord[i])] + (if scint && i < |ord| - 1 then [Prop(d)] else []);
    var rest := Interleave(h, ord[i + 1..], scint);
    assert done + step + rest == done + (step + rest);
  }

  /** The loop of `calculate_propagators`: for each sorted layer append it,
      then the propagation to the next one while there is a next one, then
      the trailing propagation. */
  method CalculateElements(h: seq<real>, ord: seq<nat>, scint: bool) returns (elements: seq<Element>)
    requires InRange(h, ord) && |ord| >= 1
    ensures elements == BuildChainFrom(h, ord, scint)
  {
    var sorted := seq(|ord|, i requires 0 <= i < |ord| => h[ord[i]]);
    var deltas := seq(|ord| - 1, i requires 0 <= i < |ord| - 1 => sorted[i] - sorted[i + 1]);
    elements := [];
    var i := 0;
    while i < |ord|
      invariant 0 <= i <= |ord|
      invariant elements + Interleave(h, ord[i..], scint) == Interleave(h, ord, scint)
    {
      var d := if i < |deltas| then deltas[i] else 0.0;
      CalculateStep(h, ord, i, scint, elements, d);
      var step := [LayerEl(ord[i])] + (if scint && i < |deltas| then [Prop(d)] else []);
      elements := elements + step;
      i := i + 1;
    }
    assert ord[i..] == [];
    if scint && sorted[|ord| - 1] > 0.0 {
      elements := elements + [Prop(sorted[|ord| - 1])];
    }
  }

  /** Three strictly increasing heights are visited top down. */
  lemma SortThreeIncreasing(h: seq<real>)
    requires |h| == 3 && h[0] < h[1] < h[2]
    ensures SortDescending(h) == [2, 1, 0]
  {
    assert SortPrefix(h, 1) == Insert(h, 0, []) == [0];
    assert Insert(h, 1, [0]) == [1, 0];
    assert SortPrefix(h, 2) == [1, 0];
    assert Insert(h, 2, [1, 0]) == [2, 1, 0];
  }

  /** The interleaved chain of a three-layer order. */
  lemma {:induction false} InterleaveThree(h: seq<real>, ord: seq<nat>)
    requires InRange(h, ord) && |ord| == 3
    ensures Interleave(h, ord, true)
         == [LayerEl(ord[0]), Prop(h[ord[0]] - h[ord[1]]),
             LayerEl(ord[1]), Prop(h[ord[1]] - h[ord[2]]), LayerEl(ord[2])]
  {
    var low := Interleave(h, ord[2..], true);
    assert low == [LayerEl(ord[2])];
    assert ord[1..][1..] == ord[2..];
    var mid := Interleave(h, ord[1..], true);
    assert mid == [LayerEl(ord[1]), Prop(h[ord[1]] - h[ord[2]])] + low;
  }

  /** Three layers at 0, 5000 and 10000 m with scintillation: highest first,
      a 5000 m propagation between neighbours, and no trailing propagation
      because the lowest layer is on the ground. */
  lemma GroundLayerChain()
    ensures BuildChain([0.0, 5000.0, 10000.0], true)
         == [LayerEl(2), Prop(5000.0), LayerEl(1), Prop(5000.0), LayerEl(0)]
  {
    var h := [0.0, 5000.0, 10000.0];
    SortThreeIncreasing(h);
    InterleaveThree(h, [2, 1, 0]);
  }

  /** With the lowest of those layers raised to 100 m, a final 100 m
      propagation to the ground is appended. */
  lemma RaisedLayerChain()
    ensures BuildChain([100.0, 5000.0, 10000.0], true)
         == [LayerEl(2), Prop(5000.0), LayerEl(1), Prop(4900.0), LayerEl(0), Prop(100.0)]
  {
    var h := [100.0, 5000.0, 10000.0];
    SortThreeIncreasing(h);
    InterleaveThree(h, [2, 1, 0]);
  }
}

=== FILE: layer.dfy ===
/** One infinitely-thin atmospheric layer, reduced to the attributes the
    composite atmosphere reads and writes. */
module Layers {

  /** An outer scale is a positive length or infinity (the default). */
  datatype OuterScale = Finite(length: real) | Infinite

  /** What a caller may assign to `velocity`: a scalar or an explicit vector. */
  datatype VelocityInput = Scalar(speed: real) | Vector(components: seq<real>)

  /** A layer. `screen` is the layer's phase, in radians, at the wavelength in
      use, one sample per grid point; how a concrete layer produces it is not
      part of this model. */
  datatype Layer = Layer(
    height: real,
    cnSquared: real,
    outerScale: OuterScale,
    velocity: seq<real>,
    screen: seq<real>)

  /** The velocity setter: a scalar means motion along the first axis. */
  function NormalizeVelocity(v: VelocityInput): (r: seq<real>)
    ensures v.Scalar? ==> |r| == 2 && r[0] == v.speed && r[1] == 0.0
    ensures v.Vector? ==> r == v.components
  {
    match v
    case Scalar(s) => [s, 0.0]
    case Vector(c) => c
  }

  function SetVelocity(l: Layer, v: VelocityInput): (r: Layer)
    ensures r.velocity == NormalizeVelocity(v)
    ensures r.(velocity := l.velocity) == l
  {
    l.(velocity := NormalizeVelocity(v))
  }

  /** A scalar speed and the vector [speed, 0] set the same velocity, and
      the getter reads back the normalised vector. */
  lemma ScalarVelocityIsVector(l: Layer, speed: real)
    ensures SetVelocity(l, Scalar(speed)) == SetVelocity(l, Vector([speed, 0.0]))
    ensures SetVelocity(l, Scalar(speed)).velocity == [speed, 0.0]
  {
  }

  /** Writing the outer scale, as a concrete layer's setter stores it. */
  function SetOuterScale(l: Layer, v: OuterScale): (r: Layer)
    ensures r.outerScale == v
    ensures r.(outerScale := l.outerScale) == l
  {
    l.(outerScale := v)
  }

  /** `L0` is a second name for the outer scale. */
  function L0(l: Layer): (r: OuterScale)
  {
    l.outerScale
  }

  function SetL0(l: Layer, v: OuterScale): (r: Layer)
  {
    SetOuterScale(l, v)
  }

  /** Reading and writing through either name is observably the same. */
  lemma L0IsOuterScale(l: Layer, v: OuterScale)
    ensures L0(l) == l.outerScale
    ensures SetL0(l, v) == SetOuterScale(l, v)
    ensures L0(SetL0(l, v)) == v && SetL0(l, v).outerScale == v
    ensures SetL0(l, v).(outerScale := l.outerScale) == l
  {
  }

  /** Every layer has a phase screen of `n` samples: all share one grid. */
  predicate ScreensFit(ls: seq<Layer>, n: nat)
  {
    forall i :: 0 <= i < |ls| ==> |ls[i].screen| == n
  }

  /** Elementwise sum of two phase maps on the same grid. */
  function AddPhase(w: seq<real>, p: seq<real>): (r: seq<real>)
    requires |w| == |p|
    ensures |r| == |w|
  {
    seq(|w|, k requires 0 <= k < |w| => w[k] + p[k])
  }

  /** A phase map equal, sample by sample, to the sum is the sum. */
  lemma AddPhaseBySample(w: seq<real>, p: seq<real>, r: seq<real>)
    requires |r| == |w| == |p|
    requires forall k :: 0 <= k < |w| ==> r[k] == w[k] + p[k]
    ensures r == AddPhase(w, p)
  {
  }

  /** Elementwise difference of two phase maps on the same grid. */
  function SubPhase(w: seq<real>, p: seq<real>): (r: seq<real>)
    requires |w| == |p|
    ensures |r| == |w|
  {
    seq(|w|, k requires 0 <= k < |w| => w[k] - p[k])
  }

  /** A layer's forward operation multiplies the field by exp(+i·phase); on the
      unwrapped phase of the wavefront that is adding the screen. */
  function LayerForward(l: Layer, w: seq<real>): (r: seq<real>)
    requires |l.screen| == |w|
    ensures |r| == |w|
  {
    AddPhase(w, l.screen)
  }

  /** The backward operation multiplies by exp(-i·phase): subtracting the screen. */
  function LayerBackward(l: Layer, w: seq<real>): (r: seq<real>)
    requires |l.screen| == |w|
    ensures |r| == |w|
  {
    SubPhase(w, l.screen)
  }

  /** A layer's backward undoes its forward, and the other way round. */
  lemma LayerRoundTrip(l: Layer, w: seq<real>)
    requires |l.screen| == |w|
    ensures LayerBackward(l, LayerForward(l, w)) == w
    ensures LayerForward(l, LayerBackward(l, w)) == w
  {
  }
}

=== FILE: outcome.dfy ===
/** Failure-compatible result type for the operations of the atmosphere that
    raise in hcipy. */
module Outcome {

  /** An optional argument. */
  datatype Option<+T> = None | Some(value: T)

  /** The error conditions the modelled operations can reach. */
  datatype Error =
    | NoLayers            // indexing the first or last layer of an empty list
    | ScintillationOn     // an unwrapped phase was asked of an atmosphere with scintillation
    | ZeroTotalCnSquared  // proportional redistribution divides by a zero total

  datatype Result<+T> = Success(value: T) | Failure(error: Error) {

    predicate IsFailure() {
      Failure?
    }

    function PropagateFailure<U>(): Result<U>
      requires Failure?
    {
      Failure(error)
    }

    function Extract(): T
      requires Success?
    {
      value
    }
  }
}

=== FILE: propagation.dfy ===
/** Passing a wavefront through a chain of elements, forwards and backwards.
    A wavefront is represented by its unwrapped phase samples; free-space
    propagation is an operator supplied by the caller. */
module Propagation {
  import opened Layers
  import opened Chain
  import opened Sums

  type Wave = seq<real>

  /** Free-space propagation over a distance; defined elsewhere. */
  type Propagator = (real, Wave) -> Wave

  /** The propagator keeps the sampling grid. */
  ghost predicate KeepsGrid(p: Propagator)
  {
    forall d, w :: |p(d, w)| == |w|
  }

  /** `back` undoes `fwd` over every distance. */
  ghost predicate Undoes(back: Propagator, fwd: Propagator)
  {
    forall d, w :: back(d, fwd(d, w)) == w
  }

  /** Every layer entry of the chain names a layer of `pool` whose screen has
      `n` samples: the layers the chain applies fit the wavefront. Objects of
      `pool` the chain does not name are not constrained. */
  predicate ChainFits(es: seq<Element>, pool: seq<Layer>, n: nat)
  {
    forall i :: 0 <= i < |es| ==> es[i].LayerEl? ==> es[i].idx < |pool| && |pool[es[i].idx].screen| == n
  }

  function StepForward(e: Element, pool: seq<Layer>, fwd: Propagator, w: Wave): (r: Wave)
    requires e.LayerEl? ==> e.idx < |pool| && |pool[e.idx].screen| == |w|
    requires KeepsGrid(fwd)
    ensures |r| == |w|
  {
    match e
    case LayerEl(i) => LayerForward(pool[i], w)
    case Prop(d) => fwd(d, w)
  }

  function StepBackward(e: Element, pool: seq<Layer>, back: Propagator, w: Wave): (r: Wave)
    requires e.LayerEl? ==> e.idx < |pool| && |pool[e.idx].screen| == |w|
    requires KeepsGrid(back)
    ensures |r| == |w|
  {
    match e
    case LayerEl(i) => LayerBackward(pool[i], w)
    case Prop(d) => back(d, w)
  }

  /** Every element of `es` applied in order. */
  function ApplyForward(es: seq<Element>, pool: seq<Layer>, fwd: Propagator, w: Wave): (r: Wave)
    requires ChainFits(es, pool, |w|) && KeepsGrid(fwd)
    ensures |r| == |w|
  {
    if es == [] then w
    else ApplyForward(es[1..], pool, fwd, StepForward(es[0], pool, fwd, w))
  }

  /** Every element's backward operation, last element first. */
  function ApplyBackward(es: seq<Element>, pool: seq<Layer>, back: Propagator, w: Wave): (r: Wave)
    requires ChainFits(es, pool, |w|) && KeepsGrid(back)
    ensures |r| == |w|
  {
    if es == [] then w
    else StepBackward(es[0], pool, back, ApplyBackward(es[1..], pool, back, w))
  }

  /** Each element's backward undoes its forward. */
  lemma StepRoundTrip(e: Element, pool: seq<Layer>, fwd: Propagator, back: Propagator, w: Wave)
    requires e.LayerEl? ==> e.idx < |pool| && |pool[e.idx].screen| == |w|
    requires KeepsGrid(fwd) && KeepsGrid(back) && Undoes(back, fwd)
    ensures StepBackward(e, pool, back, StepForward(e, pool, fwd, w)) == w
  {
    if e.LayerEl? {
      LayerRoundTrip(pool[e.idx], w);
    }
  }

  /** The chain's backward undoes its forward, given that every element's
      backward undoes its own forward. */
  lemma {:induction false} ChainRoundTrip(es: seq<Element>, pool: seq<Layer>, fwd: Propagator, back: Propagator, w: Wave)
    requires ChainFits(es, pool, |w|)
    requires KeepsGrid(fwd) && KeepsGrid(back) && Undoes(back, fwd)
    ensures ApplyBackward(es, pool, back, ApplyForward(es, pool, fwd, w)) == w
  {
    if es != [] {
      var w1 := StepForward(es[0], pool, fwd, w);
      ChainRoundTrip(es[1..], pool, fwd, back, w1);
      StepRoundTrip(es[0], pool, fwd, back, w);
    }
  }

  lemma {:induction false} BackwardSplitLast(es: seq<Element>, pool: seq<Layer>, back: Propagator, w: Wave)
    requires |es| >= 1 && ChainFits(es, pool, |w|) && KeepsGrid(back)
    ensures ApplyBackward(es, pool, back, w)
         == ApplyBackward(es[..|es| - 1], pool, back, StepBackward(es[|es| - 1], pool, back, w))
  {
    if |es| > 1 {
      BackwardSplitLast(es[1..], pool, back, w);
      assert es[1..][..|es[1..]| - 1] == es[..|es| - 1][1..];
    } else {
      assert es[..0] == [];
    }
  }

  /** The forward loop: a copy of the wavefront passed through every element
      in turn. */
  method TraverseForward(es: seq<Element>, pool: seq<Layer>, fwd: Propagator, w: Wave) returns (r: Wave)
    requires ChainFits(es, pool, |w|) && KeepsGrid(fwd)
    ensures r == ApplyForward(es, pool, fwd, w)
  {
    r := w;
    var i := 0;
    while i < |es|
      invariant 0 <= i <= |es|
      invariant |r| == |w|
      invariant ApplyForward(es[i..], pool, fwd, r) == ApplyForward(es, pool, fwd, w)
    {
      assert es[i..][1..] == es[i + 1..];
      r := StepForward(es[i], pool, fwd, r);
      i := i + 1;
    }
  }

  /** The backward loop: a copy of the wavefront passed through the reversed
      chain, each element applied backwards. */
  method TraverseBackward(es: seq<Element>, pool: seq<Layer>, back: Propagator, w: Wave) returns (r: Wave)
    requires ChainFits(es, pool, |w|) && KeepsGrid(back)
    ensures r == ApplyBackward(es, pool, back, w)
  {
    r := w;
    var i := |es|;
    assert es[..i] == es;
    while i > 0
      invariant 0 <= i <= |es|
      invariant |r| == |w|
      invariant ApplyBackward(es[..i], pool, back, r) == ApplyBackward(es, pool, back, w)
    {
      BackwardSplitLast(es[..i], pool, back, r);
      assert es[..i][..i - 1] == es[..i - 1];
      r := StepBackward(es[i - 1], pool, back, r);
      i := i - 1;
    }
  }

  // ---------------------------------------------------------------------
  // The summed unwrapped phase.
  // ---------------------------------------------------------------------

  function Zeros(n: nat): (r: seq<real>)
    ensures |r| == n
  {
    seq(n, k => 0.0)
  }

  /** The elementwise sum of the layers' phases, accumulated in list order. */
  function PhaseSum(ls: seq<Layer>, n: nat): (r: seq<real>)
    requires ScreensFit(ls, n)
    ensures |r| == n
  {
    if ls == [] then Zeros(n)
    else AddPhase(PhaseSum(ls[..|ls| - 1], n), ls[|ls| - 1].screen)
  }

  /** Sample `k` of layer `j`'s screen (zero outside the list or the grid). */
  function SampleOf(ls: seq<Layer>, k: nat): nat -> real
  {
    (j: nat) => if j < |ls| && k < |ls[j].screen| then ls[j].screen[k] else 0.0
  }

  lemma {:induction false} PhaseSumPrefix(ls: seq<Layer>, n: nat, m: nat, k: nat)
    requires ScreensFit(ls, n) && m <= |ls| && k < n
    ensures PhaseSum(ls[..m], n)[k] == SumBy(SampleOf(ls, k), Indices(m))
  {
    if m > 0 {
      PhaseSumPrefix(ls, n, m - 1, k);
      assert ls[..m][..m - 1] == ls[..m - 1];
      SumByAppend(SampleOf(ls, k), Indices(m - 1), [m - 1]);
      assert SumBy(SampleOf(ls, k), [m - 1]) == ls[m - 1].screen[k];
    }
  }

  /** Each sample of the summed phase is the sum, over all layers, of that
      sample of each layer's screen. */
  lemma PhaseSumSamples(ls: seq<Layer>, n: nat, k: nat)
    requires ScreensFit(ls, n) && k < n
    ensures PhaseSum(ls, n)[k] == SumBy(SampleOf(ls, k), Indices(|ls|))
  {
    PhaseSumPrefix(ls, n, |ls|, k);
    assert ls[..|ls|] == ls;
  }

  /** The layer identities of a chain made of layers only. */
  function Ids(es: seq<Element>): (r: seq<nat>)
    requires forall i :: 0 <= i < |es| ==> es[i].LayerEl?
    ensures |r| == |es| && forall i :: 0 <= i < |es| ==> r[i] == es[i].idx
  {
    seq(|es|, i requires 0 <= i < |es| => es[i].idx)
  }

  /** Through a chain of layers only, each sample of the wavefront gains the
      sum of that sample of every layer's screen. */
  lemma {:induction false} ForwardThroughLayers(es: seq<Element>, pool: seq<Layer>, fwd: Propagator, w: Wave, k: nat)
    requires forall i :: 0 <= i < |es| ==> es[i].LayerEl?
    requires ChainFits(es, pool, |w|) && KeepsGrid(fwd) && k < |w|
    ensures ApplyForward(es, pool, fwd, w)[k] == w[k] + SumBy(SampleOf(pool, k), Ids(es))
  {
    if es != [] {
      var w1 := StepForward(es[0], pool, fwd, w);
      ForwardThroughLayers(es[1..], pool, fwd, w1, k);
      assert Ids(es)[1..] == Ids(es[1..]);
    }
  }
}

=== FILE: seeing.dfy ===
/** Conversions between the seeing (the full width at half maximum of a
    seeing-limited point source, in arcseconds) and the Fried parameter,
    through theta = 0.98 * wavelength / r0 with theta in radians. */
module Seeing {

  /** The value of pi used by the numerical library. */
  const Pi: real := 3.141592653589793

  const ArcsecondsPerDegree: real := 3600.0

  /** The factor relating the seeing FWHM to wavelength over Fried parameter. */
  const FwhmFactor: real := 0.98

  function Radians(degrees: real): real
  {
    degrees * (Pi / 180.0)
  }

  function Degrees(radians: real): real
  {
    radians * (180.0 / Pi)
  }

  /** The Fried parameter, in meters, at `wavelength` for a seeing given in
      arcseconds; its FWHM in radians times r0 is 0.98 wavelengths. */
  function SeeingToFriedParameter(seeing: real, wavelength: real): (r0: real)
    requires seeing != 0.0
    ensures Radians(seeing / ArcsecondsPerDegree) * r0 == FwhmFactor * wavelength
    ensures seeing > 0.0 && wavelength > 0.0 ==> r0 > 0.0
  {
    FwhmFactor * wavelength / Radians(seeing / ArcsecondsPerDegree)
  }

  /** The seeing, in arcseconds, for a Fried parameter at `wavelength`; the
      same relation read the other way. */
  function FriedParameterToSeeing(r0: real, wavelength: real): (seeing: real)
    requires r0 != 0.0
    ensures Radians(seeing / ArcsecondsPerDegree) * r0 == FwhmFactor * wavelength
    ensures r0 > 0.0 && wavelength > 0.0 ==> seeing > 0.0
  {
    Degrees(FwhmFactor * wavelength / r0) * ArcsecondsPerDegree
  }

  /** Seeing to Fried parameter and back gives the seeing again. */
  lemma SeeingRoundTrip(seeing: real, wavelength: real)
    requires seeing != 0.0 && wavelength != 0.0
    ensures SeeingToFriedParameter(seeing, wavelength) != 0.0
    ensures FriedParameterToSeeing(SeeingToFriedParameter(seeing, wavelength), wavelength) == seeing
  {
  }

  /** Fried parameter to seeing and back gives the Fried parameter again. */
  lemma FriedRoundTrip(r0: real, wavelength: real)
    requires r0 != 0.0 && wavelength != 0.0
    ensures FriedParameterToSeeing(r0, wavelength) != 0.0
    ensures SeeingToFriedParameter(FriedParameterToSeeing(r0, wavelength), wavelength) == r0
  {
  }
}

=== FILE: strength.dfy ===
/** Aggregate controls over a list of layers: total turbulence strength and
    its proportional redistribution, and the shared outer scale. */
module Strength {
  import opened Outcome
  import opened Layers
  import opened Chain
  import opened Sums

  /** The total Cn^2: the sum of the layers' values. */
  function TotalCnSquared(ls: seq<Layer>): real
  {
    if ls == [] then 0.0 else ls[0].cnSquared + TotalCnSquared(ls[1..])
  }

  /** One layer's new strength, with the old total read beforehand. */
  function ScaleStrength(l: Layer, total: real, x: real): (r: Layer)
    requires total != 0.0
  {
    l.(cnSquared := l.cnSquared / total * x)
  }

  function Rescale(ls: seq<Layer>, total: real, x: real): (r: seq<Layer>)
    requires total != 0.0
    ensures |r| == |ls|
  {
    seq(|ls|, i requires 0 <= i < |ls| => ScaleStrength(ls[i], total, x))
  }

  /** The total Cn^2 setter: every layer is rescaled by the ratio of the new
      total to the old one, read once before any layer changes. An empty list
      is left alone; a non-empty list whose total is zero would divide by
      zero. */
  function Redistribute(ls: seq<Layer>, x: real): Result<seq<Layer>>
  {
    var total := TotalCnSquared(ls);
    if |ls| == 0 then Success(ls)
    else if total == 0.0 then Failure(ZeroTotalCnSquared)
    else Success(Rescale(ls, total, x))
  }

  lemma {:induction false} RescaleTotal(ls: seq<Layer>, total: real, x: real)
    requires total != 0.0
    ensures TotalCnSquared(Rescale(ls, total, x)) == TotalCnSquared(ls) / total * x
  {
    if ls != [] {
      var r := Rescale(ls, total, x);
      assert r[1..] == Rescale(ls[1..], total, x);
      RescaleTotal(ls[1..], total, x);
      var a, b := ls[0].cnSquared, TotalCnSquared(ls[1..]);
      assert a / total * x + b / total * x == (a + b) / total * x;
    }
  }

  /** `r` is `ls` with every strength rescaled so that each layer keeps its
      share of `total` in a total of `x`: pairwise ratios are kept, zero
      strengths stay zero, and nothing but the strength changes. */
  ghost predicate SharesKept(ls: seq<Layer>, r: seq<Layer>, total: real, x: real)
  {
    && |r| == |ls|
    && (forall i :: 0 <= i < |ls| ==> r[i].cnSquared * total == ls[i].cnSquared * x)
    && (forall i, j :: 0 <= i < |ls| && 0 <= j < |ls| ==>
          r[i].cnSquared * ls[j].cnSquared == r[j].cnSquared * ls[i].cnSquared)
    && (forall i :: 0 <= i < |ls| && ls[i].cnSquared == 0.0 ==> r[i].cnSquared == 0.0)
    && (forall i :: 0 <= i < |ls| ==> r[i].(cnSquared := ls[i].cnSquared) == ls[i])
  }

  lemma RescaleShares(ls: seq<Layer>, total: real, x: real)
    requires total != 0.0
    ensures SharesKept(ls, Rescale(ls, total, x), total, x)
  {
    var r := Rescale(ls, total, x);
    forall i | 0 <= i < |ls|
      ensures r[i].cnSquared * total == ls[i].cnSquared * x
    {
      var a := ls[i].cnSquared;
      assert a / total * x * total == a * x;
    }
    forall i, j | 0 <= i < |ls| && 0 <= j < |ls|
      ensures r[i].cnSquared * ls[j].cnSquared == r[j].cnSquared * ls[i].cnSquared
    {
      var a, b := ls[i].cnSquared, ls[j].cnSquared;
      assert a / total * x * b == b / total * x * a;
    }
  }

  lemma OwnShareIsWhole(total: real, x: real)
    requires total != 0.0
    ensures total / total * x == x
  {
  }

  /** Rescaling by the list's own total reaches the requested total. */
  lemma RescaleToTotal(ls: seq<Layer>, total: real, x: real)
    requires total != 0.0 && total == TotalCnSquared(ls)
    ensures TotalCnSquared(Rescale(ls, total, x)) == x
  {
    RescaleTotal(ls, total, x);
    OwnShareIsWhole(total, x);
  }

  /** On a non-empty list with a non-zero total, redistribution rescales
      to the requested total and keeps every share. */
  lemma RescaleCorrect(ls: seq<Layer>, x: real)
    requires |ls| > 0 && TotalCnSquared(ls) != 0.0
    ensures Redistribute(ls, x) == Success(Rescale(ls, TotalCnSquared(ls), x))
    ensures TotalCnSquared(Rescale(ls, TotalCnSquared(ls), x)) == x
    ensures SharesKept(ls, Rescale(ls, TotalCnSquared(ls), x), TotalCnSquared(ls), x)
  {
    RescaleToTotal(ls, TotalCnSquared(ls), x);
    RescaleShares(ls, TotalCnSquared(ls), x);
  }

  /** After redistribution the total is the requested value (an empty list
      keeps its zero total) and every layer keeps its share of the old total.
      The only failure is a zero total over a non-empty list. */
  lemma RedistributeCorrect(ls: seq<Layer>, x: real)
    ensures Redistribute(ls, x).Failure? <==> |ls| > 0 && TotalCnSquared(ls) == 0.0
    ensures Redistribute(ls, x).Success? ==>
      && TotalCnSquared(Redistribute(ls, x).value) == (if |ls| == 0 then 0.0 else x)
      && SharesKept(ls, Redistribute(ls, x).value, TotalCnSquared(ls), x)
  {
    if |ls| == 0 {
      assert SharesKept(ls, ls, 0.0, x);
    } else if TotalCnSquared(ls) != 0.0 {
      RescaleCorrect(ls, x);
    }
  }

  /** The outer scale getter reads the first layer. */
  function OuterScaleOf(ls: seq<Layer>): (r: Result<OuterScale>)
  {
    if |ls| == 0 then Failure(NoLayers) else Success(ls[0].outerScale)
  }

  /** The outer scale setter writes the same value into every layer. */
  function BroadcastOuterScale(ls: seq<Layer>, v: OuterScale): (r: seq<Layer>)
    ensures |r| == |ls|
  {
    seq(|ls|, i requires 0 <= i < |ls| => SetOuterScale(ls[i], v))
  }

  /** After a broadcast the getter reads back the written value, every layer
      holds it, and nothing else of any layer changes. */
  lemma BroadcastThenRead(ls: seq<Layer>, v: OuterScale)
    ensures OuterScaleOf(BroadcastOuterScale(ls, v)) == (if |ls| == 0 then Failure(NoLayers) else Success(v))
    ensures forall i :: 0 <= i < |ls| ==> BroadcastOuterScale(ls, v)[i].outerScale == v
    ensures forall i :: 0 <= i < |ls| ==>
      BroadcastOuterScale(ls, v)[i].(outerScale := ls[i].outerScale) == ls[i]
  {
  }
}

=== FILE: sums.dfy ===
/** Sums of real-valued functions over sequences of indices, and the fact
    that such a sum does not depend on the order of the indices. */
module Sums {

  function SumBy(f: nat -> real, s: seq<nat>): real
  {
    if s == [] then 0.0 else f(s[0]) + SumBy(f, s[1..])
  }

  lemma {:induction false} SumByAppend(f: nat -> real, a: seq<nat>, b: seq<nat>)
    ensures SumBy(f, a + b) == SumBy(f, a) + SumBy(f, b)
  {
    if a == [] {
      assert a + b == b;
    } else {
      assert (a + b)[1..] == a[1..] + b;
      SumByAppend(f, a[1..], b);
    }
  }

  /** Removing the entry at position `k`. */
  lemma MultisetRemoveAt(t: seq<nat>, k: nat)
    requires k < |t|
    ensures multiset(t[..k] + t[k + 1..]) == multiset(t) - multiset{t[k]}
  {
    assert t == t[..k] + [t[k]] + t[k + 1..];
  }

  lemma SumByRemoveAt(f: nat -> real, t: seq<nat>, k: nat)
    requires k < |t|
    ensures SumBy(f, t) == f(t[k]) + SumBy(f, t[..k] + t[k + 1..])
  {
    var before, after := t[..k], t[k + 1..];
    SumByAppend(f, before, after);
    SumByAppend(f, before, [t[k]] + after);
    assert ([t[k]] + after)[1..] == after;
    assert t == before + ([t[k]] + after);
  }

  /** Summing in any order gives the same total. */
  lemma {:induction false} SumByPermutation(f: nat -> real, s: seq<nat>, t: seq<nat>)
    requires multiset(s) == multiset(t)
    ensures SumBy(f, s) == SumBy(f, t)
  {
    if s == [] {
      assert |t| == |multiset(t)| == 0;
    } else {
      var x := s[0];
      assert s == [x] + s[1..];
      assert x in multiset(t);
      var k :| 0 <= k < |t| && t[k] == x;
      MultisetRemoveAt(t, k);
      SumByPermutation(f, s[1..], t[..k] + t[k + 1..]);
      SumByRemoveAt(f, t, k);
    }
  }

  /** Two sums agree when their terms agree position by position. */
  lemma {:induction false} SumByPointwise(f: nat -> real, s: seq<nat>, g: nat -> real, t: seq<nat>)
    requires |s| == |t|
    requires forall i :: 0 <= i < |s| ==> f(s[i]) == g(t[i])
    ensures SumBy(f, s) == SumBy(g, t)
  {
    if s != [] {
      SumByPointwise(f, s[1..], g, t[1..]);
    }
  }
}
